=== FILE: README.md ===
# infra-ai-forge deployment core, in Dafny

A model of the part of infra-ai-forge that turns a "deploy this repository"
request into a run of the SST toolchain, and of the pieces around it:

- **The deployment worker** (`flyio-worker/src/index.ts`, and the older compiled
  `flyio-worker/src/source.js`). One poll cycle reads the job table and picks the
  oldest eligible job. It claims the job by writing `processing`. It then runs,
  in a fresh temporary directory: `git clone`, `npm install`, the
  `npx sst version` probe (with `npm install -g sst` as fallback), and
  `npx sst deploy` or `npx sst remove`. At the end it writes `completed` or
  `failed` and removes the directory. Both workers are one function,
  `Worker.ProcessRepository` / `Worker.PollForJobs`, parameterised by a
  `Variant`:
  - `Current` polls `deployments` for `pending` and `toBeRemoved` jobs.
  - `Legacy` polls `deployment_jobs` for `pending` jobs and always deploys.
- **The job store** (`Jobs`). It is a map from table name to rows in storage
  order. It has the worker's update-by-id and the "first row by a key"
  selection behind `order(...).limit(1)`.
- **The `sendRepoContents` edge function** (`RepoContents`). It clones a GitHub
  repository, with the token spliced into the URL. It keeps the files that look
  like text and uploads them in batches of 100, and it answers 200/400/500.
  The handler as written leaves the temporary directory behind when git
  fails (see "## Findings"). The corrected handler removes it on every path.
- **The dashboard** (`Dashboard`). `handleDeploy` queues a `pending` row.
  `fetchProjects` shows each project with its latest deployment's status.
- **The two configuration wizards**:
  - `SetupDialog` is the three-step dialog in `src/components/DeploymentWizard.tsx`.
  - `SetupChat` is the chat page in `src/pages/DeploymentWizard.tsx`.
  - They share `ConfigReply`: the reply of `generate-sst-config` and the
    service-tag rule.
- **Cross-component properties** (`WorkerFacts`, `Lifecycle`). These cover the
  fallback install, where a run stops, the two status writes of a cycle, and
  cleanup and store failures never changing a result. They also show that the
  clone command's space-separated words are `git` followed by the arguments
  the edge function passes to git, and what the worker does with a row the
  dashboard queued.

Everything outside the processes is an input. `Worker.Env` supplies:
- the fetch outcome;
- the directory `mkdtempSync` makes, or its error;
- a function from each command invocation to its exit;
- whether `rmSync` works;
- whether each status write reaches the store.

`RepoContents.Services` does the same for the edge function. The wizards take
the function's reply as a parameter. A command's outcome may depend on its
line, working directory and `AWS_REGION`. It may not depend on earlier
commands.

Two modelling choices worth knowing:
- A `completed` write sends `error_message: undefined`. JSON drops undefined
  properties, so the stored message is left as it was, not cleared
  (`Jobs.SetStatus`, `WorkerFacts.CycleSettlesJob`).
- Rows with the same `created_at` are ordered by storage order. Both the
  worker's oldest-first pick and the dashboard's newest-first merge take the
  first such row (`Jobs.FirstMin`).

## Model

| member | source | states |
|---|---|---|
| `Jobs.UpdateStatus` | flyio-worker/src/index.ts:43-50 | The update by id changes status and message of every row with that id and of no other row; no row is added or removed |
| `Jobs.FirstMin` | flyio-worker/src/index.ts:151-156 | The chosen row satisfies the filter and has the least key; every earlier matching row has a strictly larger key; nothing is chosen exactly when no row matches |
| `Jobs.FirstMinUnique` | flyio-worker/src/index.ts:155-156 | Any index that matches, has the least key and comes first among those is the selection |
| `Common.Or` | flyio-worker/src/index.ts:96 | `x \|\| d` yields the value when it is present and non-empty, else the default |
| `Text.ReplaceFirst` | supabase/functions/sendRepoContents/index.ts:13 | `replace` with a string pattern changes only the first occurrence: the text before it is kept, the replacement stands where it was, and the rest follows unchanged; without an occurrence nothing changes |
| `Text.Utf16Length` | src/pages/DeploymentWizard.tsx:98 | `.length` counts UTF-16 code units: between one and two per character, exactly one per character only when every character is in the Basic Multilingual Plane |
| `Worker.ExecuteCommand` | flyio-worker/src/index.ts:58-81 | Exit 0 returns the output; any other exit throws with stderr when that is non-empty, else the error's own message (same in flyio-worker/src/source.js:91-112) |
| `Worker.Region` | flyio-worker/src/index.ts:70 | Child processes see the worker's `AWS_REGION` when set and non-empty, else `us-east-1` |
| `Worker.CloneLine` | flyio-worker/src/index.ts:96-97 | The clone line starts `git clone --depth 1 --branch `, then the branch or `main`, and ends with the directory; its length accounts for exactly the branch, the printed URL and the directory |
| `Worker.FinalLine` | flyio-worker/src/index.ts:113-116 | The sst line is `npx sst `, the action for the job, ` --stage ` and the stage or `production` |
| `Worker.Action` | flyio-worker/src/index.ts:112-116 | The sst sub-command is `remove` exactly for a `toBeRemoved` job in the current worker, `deploy` otherwise |
| `Worker.RunSteps` | flyio-worker/src/index.ts:95-116 | The commands run are a prefix of clone, install, probe, fallback (only if the probe failed), sst. Each runs as the environment says. Only the probe may fail without ending the run. A run cut short ends in a failure |
| `Worker.Verdict` | flyio-worker/src/index.ts:118-126 | Success writes `completed` with no message; failure writes `failed` with the thrown message |
| `Worker.ProcessRepository` | flyio-worker/src/index.ts:84-138 | The verdict is written last before cleanup. A directory that was made is created first and removed last on every path; it is gone exactly when removal works. Between the two, the commands executed are exactly the run, and the result is how its last command ended. Without a directory nothing runs and the mkdtemp error is the result (same for `deployRepository`, flyio-worker/src/source.js:114-175) |
| `Worker.Oldest` | flyio-worker/src/index.ts:151-156 | A poll picks nothing exactly when no row is eligible; otherwise an eligible row no newer than any other, and older than every eligible row stored before it |
| `Worker.PollForJobs` | flyio-worker/src/index.ts:141-181 | A failed fetch or no eligible row changes nothing. Otherwise the oldest eligible job is claimed with `processing` before anything else. The pipeline then runs on the row as read, not as claimed, so a `toBeRemoved` job is still removed. The cycle's events, rows, directories and handled result are the claim followed by that pipeline's. Its error is swallowed, and other tables are untouched |
| `Worker.StopPolling` | flyio-worker/src/index.ts:193-198 | Stopping clears a set timer; the handle stays assigned, so the health flag keeps its value |
| `WorkerFacts.FallbackIffProbeFailed` | flyio-worker/src/index.ts:104-110 | `npm install -g sst` runs exactly when the probe ran and failed, at most once, right after the probe |
| `WorkerFacts.FailureStopsTheRun` | flyio-worker/src/index.ts:95-116 | A failed command other than the probe is the last command run |
| `WorkerFacts.SuccessRunsThePlan` | flyio-worker/src/index.ts:112-122 | A run succeeds exactly when every planned command ran and the final sst command returned |
| `WorkerFacts.VerdictFollowsCommands` | flyio-worker/src/index.ts:95-126 | The job is reported `completed` exactly when no command other than the probe failed; otherwise `failed` with the message of the failing command, which is the last one run and never the probe |
| `WorkerFacts.PollingLifecycle` | flyio-worker/src/index.ts:184-203 | Before a start the health flag is false and a firing does nothing. A start sets the flag and runs one cycle, and each firing then runs exactly one poll cycle. After a stop a firing writes, runs and makes nothing, the flag still reads true, and stopping again changes nothing |
| `WorkerFacts.ResultIgnoresCleanupAndWrites` | flyio-worker/src/index.ts:127-137 | Whether removal or the store writes fail never changes the commands run or the result |
| `WorkerFacts.PipelineWritesVerdict` | flyio-worker/src/index.ts:118-126 | The pipeline's only status write is the verdict on its own result |
| `WorkerFacts.CycleWritesClaimThenVerdict` | flyio-worker/src/index.ts:170-177 | A cycle that picks a job writes exactly two statuses: `processing`, then the verdict |
| `WorkerFacts.CycleRunsPickedRow` | flyio-worker/src/index.ts:86-116 | When the picked job succeeds, the cycle's last command is that row's sst line, `remove` exactly for a current-worker `toBeRemoved` row; with working removal the job's directory is gone afterwards |
| `WorkerFacts.CycleSettlesJob` | flyio-worker/src/index.ts:38-55 | With working writes the job's rows end `completed` (message kept) or `failed` with the pipeline's message; all other rows are unchanged |
| `WorkerFacts.CloneCommandWords` | flyio-worker/src/index.ts:96-98 | The clone line's space-separated words are `git` and exactly the edge function's git arguments, with branch default `main`, when its parts hold no space |
| `WorkerFacts.FinalCommandMode` | flyio-worker/src/index.ts:112-116 | The final command is `npx sst remove --stage <stage>` exactly for a current-worker `toBeRemoved` job; the legacy worker always deploys |
| `WorkerFacts.LegacyIgnoresRemovals` | flyio-worker/src/source.js:177-200 | The legacy poll ignores every row of `deployment_jobs` that is not `pending`; with none it writes and runs nothing |
| `Lifecycle.AppendedRowIsClonedNext` | flyio-worker/src/index.ts:151-177 | A pending row appended to a table with no other eligible row is the next job claimed and cloned |
| `Lifecycle.QueuedDeploymentClonesUndefined` | src/pages/Dashboard.tsx:116-124 | As written, the row the dashboard queues is cloned from the URL `undefined` |
| `Lifecycle.QueuedDeploymentClonesProjectRepository` | src/pages/Dashboard.tsx:116-124 | With the corrected insert, the queued row is cloned from the project's URL and branch and deployed to stage `production` |
| `Lifecycle.FeatureBranchDeploys` | flyio-worker/src/index.ts:95-122 | Job J1 on `feature-x`/`staging` with all commands succeeding: four commands with those values; `completed`, no message; directory gone |
| `Lifecycle.MissingBranchFails` | flyio-worker/src/index.ts:123-137 | The same job when the clone fails with `branch not found`: nothing else runs; `failed` with that message; directory gone |
| `Lifecycle.RemovalUsesDefaults` | flyio-worker/src/index.ts:96-116 | A `toBeRemoved` job without branch or stage clones `main` and removes stage `production` |
| `Lifecycle.IdleCycleWritesNothing` | flyio-worker/src/index.ts:165-168 | With no eligible job a cycle writes nothing |
| `RepoContents.BranchOrDefault` | supabase/functions/sendRepoContents/index.ts:261 | An absent branch means `main`; a given one, even empty, is kept |
| `RepoContents.CloneUrl` | supabase/functions/sendRepoContents/index.ts:11-14 | The URL changes only for a truthy token and a URL containing `github.com`; then `https://<token>@` stands where its first `https://` was, and it grows by the token and the `@` |
| `RepoContents.CloneUrlCarriesToken` | supabase/functions/sendRepoContents/index.ts:11-14 | An https GitHub URL with a token becomes `https://<token>@…` |
| `RepoContents.CloneUrlUnchanged` | supabase/functions/sendRepoContents/index.ts:12 | Without a token or without `github.com` the URL is used as given |
| `RepoContents.GitArgs` | supabase/functions/sendRepoContents/index.ts:15-24 | git gets seven arguments ending in branch, clone URL and directory |
| `RepoContents.CloneRepository` | supabase/functions/sendRepoContents/index.ts:7-35 | A failed mkdtemp or a non-zero git exit is an error (`Git clone failed: <stderr>`); only the latter carries the directory already made |
| `RepoContents.Extension` | supabase/functions/sendRepoContents/index.ts:97 | The extension is empty exactly when the name has no `.`; otherwise it is `.` plus the lower-cased part after the last `.` |
| `RepoContents.RelativePath` | supabase/functions/sendRepoContents/index.ts:96 | A relative path is never longer than the walked one; a path not containing the directory only loses a leading `/`; one containing it loses at least the directory's length |
| `RepoContents.RelativePathInsideDir` | supabase/functions/sendRepoContents/index.ts:96 | A path inside the directory loses the directory and one `/` |
| `RepoContents.ReadOne` | supabase/functions/sendRepoContents/index.ts:96-116 | An entry yields a record exactly when its extension is kept and it reads; a failed read is skipped |
| `RepoContents.ReadAllFiles` | supabase/functions/sendRepoContents/index.ts:92-118 | The walk yields at most one record per file visited |
| `RepoContents.ReadAllFilesKeepsText` | supabase/functions/sendRepoContents/index.ts:97-101 | Every record read has a text extension or none |
| `RepoContents.ReadAllFilesAppend` | supabase/functions/sendRepoContents/index.ts:92-118 | Reading is entry by entry: the records of two walks are the records of each, in order |
| `RepoContents.Batches` | supabase/functions/sendRepoContents/index.ts:214-216 | Every batch holds 1 to 100 files and all but the last exactly 100 |
| `RepoContents.BatchesConcat` | supabase/functions/sendRepoContents/index.ts:214-216 | The batches, concatenated, are the files in order |
| `RepoContents.BatchesCount` | supabase/functions/sendRepoContents/index.ts:233 | There are ceil(n/100) batches |
| `RepoContents.PostFrom` | supabase/functions/sendRepoContents/index.ts:215-232 | Batches are posted in order up to and including the first one not accepted. A non-ok answer's body gives the error `Failed to upload batch: <text>`; a rejected `fetch` or unreadable body gives that error's own message |
| `RepoContents.UploadToWeaviate` | supabase/functions/sendRepoContents/index.ts:205-236 | The loop sends a prefix of the batches and ends as the batch-by-batch definition does |
| `RepoContents.Serve` | supabase/functions/sendRepoContents/index.ts:248-323 | The handler corrected to remove a failed clone's directory. A missing URL is a 400 before any clone. An unreadable body, a schema error or a failed clone is a 500 with nothing uploaded. The 500 carries the parser's message, the schema error, or the clone's error (`Git clone failed: <stderr>`, the mkdtemp error or the spawn error). A checkout with no kept file is a 400 `No supported files found in repository`. Otherwise the batches go out in order, and the first one not accepted gives a 500 with its error. The answer is 200 with the number of kept files exactly when every batch was accepted. With working removal no directory is left |
| `RepoContents.ServeAsWritten` | supabase/functions/sendRepoContents/index.ts:248-323 | The handler as written answers exactly as the corrected one. When the git call failed after the directory was made, that directory is left on disk whatever removal does; every other request leaves what the corrected handler leaves |
| `RepoContents.FailedCloneLeaksDirectory` | supabase/functions/sendRepoContents/index.ts:259-322 | As written, a failed git clone leaves its directory behind even when removal works |
| `RepoContents.CorrectionOnlyAffectsFailedClones` | supabase/functions/sendRepoContents/index.ts:317-322 | The corrected handler answers exactly as written; the directories left differ only after a failed git clone |
| `RepoContents.ResponseIgnoresCleanup` | supabase/functions/sendRepoContents/index.ts:238-247 | A failed removal never changes the response, the git call or the uploads |
| `Dashboard.Find` | src/pages/Dashboard.tsx:88 | The first project with the id, or none when no project has it |
| `Dashboard.RowsOf` | src/pages/Dashboard.tsx:99-103 | A project has no deployment rows exactly when no row names it |
| `Dashboard.HandleDeploy` | src/pages/Dashboard.tsx:86-139 | A row is queued exactly when the project has a URL, the check finds no row and both calls work. The row is appended with `pending`, the branch, the URL in `repo_url` and no stage; otherwise nothing changes |
| `Dashboard.HandleDeployCorrected` | src/pages/Dashboard.tsx:116-124 | Decides exactly as written; the queued row also carries the URL in `github_url` |
| `Dashboard.MergeCard` | src/pages/Dashboard.tsx:52-64 | The card shows the newest deployment's status and its URL when truthy, else the project's URL; without a deployment no status |
| `Dashboard.FetchProjects` | src/pages/Dashboard.tsx:50-66 | One card per project, in order |
| `Text.TrimEmptyIffBlank` | src/components/DeploymentWizard.tsx:55 | A trimmed text is empty exactly when it was all white space |
| `ConfigReply.AddTagsJoin` | src/components/DeploymentWizard.tsx:126-128 | Clicking tags into an empty prompt gives the tags joined by single spaces |
| `ConfigReply.ClickingEveryService` | src/pages/DeploymentWizard.tsx:35-38 | Clicking each offered service once, in the order shown, into an empty prompt gives the services separated by single spaces |
| `ConfigReply.AddServiceTag` | src/pages/DeploymentWizard.tsx:221-223 | A tag click keeps the old text as a prefix, ends with the service and adds at most one space between; on an empty input the result is the service alone |
| `SetupDialog.HandleNext` | src/components/DeploymentWizard.tsx:45-107 | Step 1 advances exactly when a repository is chosen. Step 2 calls out exactly for a non-blank prompt, reaches step 3 exactly on an accepted reply and otherwise stays; loading is off afterwards. Choices are never changed |
| `SetupDialog.HandleBack` | src/components/DeploymentWizard.tsx:109-111 | The step goes back one and never below 1; nothing else changes |
| `SetupDialog.HandleApply` | src/components/DeploymentWizard.tsx:113-124 | The dialog closes and restarts at step 1 with no repository, prompt or configuration; the branch is kept |
| `SetupDialog.ActionsKeepConsistent` | src/components/DeploymentWizard.tsx:262-283 | Under the buttons' guards the step stays in 1..3, steps past 1 have a repository, and step 3 has a non-blank prompt |
| `SetupDialog.ReachingReviewNeedsAcceptedReply` | src/components/DeploymentWizard.tsx:64-92 | Step 3 is only reached from step 2 through an accepted reply to the current prompt |
| `SetupChat.TranscriptEmptyIffNoMessages` | src/pages/DeploymentWizard.tsx:128-130 | The transcript is empty exactly when there are no messages |
| `SetupChat.FullPrompt` | src/pages/DeploymentWizard.tsx:128-134 | The prompt ends with the new turn's content, and without history it is the content alone |
| `SetupChat.FullPromptIsTranscript` | src/pages/DeploymentWizard.tsx:128-134 | With history the prompt is the transcript with the new user turn appended; without, the bare content |
| `SetupChat.AssistantMessage` | src/pages/DeploymentWizard.tsx:146-171 | The reply text is the suggested changes or the default, with blocks sstConfig, suggestedChanges, iamPolicy in that order |
| `SetupChat.HandleSendMessage` | src/pages/DeploymentWizard.tsx:97-189 | A send is refused, changing nothing, exactly when the trimmed input is under 10 UTF-16 code units or the project is unknown. Otherwise the trimmed input becomes a user message and the input is cleared. The transcript prompt is sent, an assistant message follows exactly when a body came back, and generating ends false |
| `SetupChat.WideCharactersCountTwice` | src/pages/DeploymentWizard.tsx:98 | Five characters outside the Basic Multilingual Plane are five characters but ten code units, so a send goes out |
| `SetupChat.SendsExtendConversation` | src/pages/DeploymentWizard.tsx:116-134 | Sends only append, and the prompt is the transcript up to the new user turn |
| `SetupChat.HandleNext` | src/pages/DeploymentWizard.tsx:191-203 | Step 2 is reached from step 1 exactly when a repository is chosen |
| `SetupChat.HandleBack` | src/pages/DeploymentWizard.tsx:205-211 | Back decrements past step 1 and leaves for the dashboard otherwise |
| `SetupChat.SelectProject` | src/pages/DeploymentWizard.tsx:336-339 | Choosing a card sets the project and its branch and nothing else |
| `SetupChat.SendAfterChoosing` | src/pages/DeploymentWizard.tsx:97-134 | After choosing a listed repository at step 1, moving on and sending a long enough input: the prompt is the conversation so far with the trimmed input as the new turn, the conversation gains that turn, the input is cleared, and the chat keeps the chosen repository and its branch at step 2 |

## Left out

- The Express server, `/health`, `/trigger`, `app.listen` and the signal handlers are left out. They are process plumbing. The health flag is `Scheduler.timerSet`.
- Poll timing, overlapping cycles and the read-then-update race between them are left out. One cycle runs at a time.
- The unfiltered diagnostic `select('*')` at the start of a poll is left out. It only logs.
- Logging, `updated_at` timestamps, toasts, navigation, clipboard, `Date.now()` ids and JSX rendering are left out. They have no effect on the modelled state.
- The Weaviate schema request and the JSON bodies of the uploads are left out. The schema step is an optional error, and each batch's answer is an input.
- The `walk` library's `skip` patterns are left out. Their matching rules are foreign code, so the walked entries are an input.
- `generate-sst-config` and `AddProjectModal` are not part of this model. The wizards take the function's reply as an input.
- The chat page's `handleApply` is left out. It only shows a notice and navigates.
- The projects fetch of the dashboard and the chat page is left out. So is a failed deployments read in `fetchProjects`, which reads as "no deployment". The listed projects and rows are inputs.
- `Worker.Interpolate`: a missing `github_url` prints as `undefined`. If the column exists and holds SQL null, the line reads `null` instead. The table schema is not part of this model, and either way the URL is lost.
- `Text.ToLower`: only ASCII letters are lower-cased. Other Unicode case mappings are not modelled.
- `Text.ReplaceFirst`: `$` replacement patterns of `String.replace` are not interpreted. A token containing `$` would be spliced in differently.
- `RepoContents.BranchOrDefault`: a JSON `null` branch is treated like an absent one and becomes `main`. In the source the destructuring default covers only an absent branch, so `null` would reach git's arguments and the records. What `Deno.Command` does with a `null` argument is not part of this model. The same goes for non-string JSON values in the other fields.
- `WorkerFacts.CloneCommandWords`: the clone line is split at single spaces only. `execSync` hands it to `/bin/sh`, which also splits at tabs and newlines and interprets quotes, `;`, `$(...)`, `|` and globs. So a branch or URL holding such characters is run differently from what the lemma describes. The shell's grammar is not modelled.
- The walk itself throwing (an unreadable directory) is left out. The walked entries are an input, and only a failure to read or stat a single file is modelled.
- `Worker.Env`: a command's outcome depends only on its invocation, not on the effects of earlier commands. Per-run variation is expressed by choosing a different environment.
- `SetupDialog.State`: `loading` is true only during the awaited call. Each handler is atomic here, so no intermediate state is visible.
- `SetupChat.HandleSendMessage`: each send is atomic, and overlapping sends are not modelled. The Enter key handler at src/pages/DeploymentWizard.tsx:460-463 does not check `isGenerating`; only the Send button does. So a second send can start before the first reply arrives. Its prompt then lacks that reply, and the replies can arrive out of order. The transcript property holds only for sends that each wait for the previous reply.
- `Dashboard.HandleDeploy`: each deploy is atomic, and overlapping calls are not modelled. The handler reads for an existing row and then inserts (src/pages/Dashboard.tsx:98-124), and nothing blocks a second click while the first is in flight. Two clicks can both find no row and queue two pending rows, after which the `maybeSingle` read fails for that project.

## Findings

| source | as written | input that shows it | evidently intended | confidence | as-written member | corrected member |
|---|---|---|---|---|---|---|
| src/pages/Dashboard.tsx:116-124 | The dashboard inserts the repository URL as `repo_url`. The worker clones `job.github_url` (flyio-worker/src/index.ts:97). | A project with a URL and branch `main`, queued and then polled: the clone line is `git clone --depth 1 --branch main undefined <dir>` | The queued job carries the URL the worker reads | medium — not executed; the table schema is not part of this model | `Lifecycle.QueuedDeploymentClonesUndefined` | `Lifecycle.QueuedDeploymentClonesProjectRepository` |
| supabase/functions/sendRepoContents/index.ts:7-35 | `cloneRepository` makes the directory and throws before returning it when git exits non-zero or cannot be spawned. The handler's `tempDir` stays null, so its `finally` removes nothing. | A POST with `github_url` set to a branch that does not exist: 500 `Git clone failed: …`, and the new directory stays on disk | Every directory made for a request is removed | high — not executed | `RepoContents.FailedCloneLeaksDirectory` | `RepoContents.Serve` |

=== FILE: common.dfy ===
/** Values shared by every part of the model: optional values and the
    JavaScript "truthiness" rules the source relies on for defaults. */
module Common {

  /** A value that may be absent; `None` stands for `undefined` or `null`. */
  datatype Option<+T> = None | Some(value: T)

  /** An optional string is truthy in JavaScript when it is present and non-empty. */
  predicate Truthy(x: Option<string>) {
    x.Some? && x.value != ""
  }

  /** JavaScript's `x || d` for an optional string and a string default:
      the value itself when it is truthy, the default otherwise. */
  function Or(x: Option<string>, d: string): (r: string)
    ensures Truthy(x) ==> r == x.value
    ensures !Truthy(x) ==> r == d
  {
    if Truthy(x) then x.value else d
  }

  /** JavaScript's `x || y` where both sides are optional strings. */
  function OrElse(x: Option<string>, y: Option<string>): (r: Option<string>)
    ensures Truthy(x) ==> r == x
    ensures !Truthy(x) ==> r == y
  {
    if Truthy(x) then x else y
  }

  /** What making a temporary directory does: it makes a fresh directory or throws. */
  datatype TempDir = Made(dir: string) | NotMade(message: string)
}

=== FILE: config_reply.dfy ===
/** What both deployment wizards share: the configuration returned by the
    `generate-sst-config` function, and the service tags a user can click to
    extend a prompt. The function itself is not part of this model; its reply
    is an input. */
module ConfigReply {
  import opened Common
  import opened Text

  /** The services offered as tags, in the order they are shown. */
  const AwsServices: seq<string> := ["Lambda", "API Gateway", "DynamoDB", "S3", "RDS",
                                    "SQS", "SNS", "EventBridge", "Step Functions", "CloudFront"]

  /** The body of a reply; every field may be missing. */
  datatype Config = Config(
    error: Option<string>,
    sstConfig: Option<string>,
    suggestedChanges: Option<string>,
    iamPolicy: Option<string>)

  /** The outcome of invoking the function: a transport error, or a body
      (`None` when the body is `null`). */
  datatype Reply = InvokeError(message: string) | Body(data: Option<Config>)

  /** `prev + (prev ? " " : "") + service`: one click on a tag. A click never
      removes what was typed: the old prompt is a prefix, the service ends the
      new one, and at most one space is put between them. */
  function AddServiceTag(prev: string, service: string): (r: string)
    ensures |prev| + |service| <= |r| <= |prev| + |service| + 1
    ensures r[..|prev|] == prev && r[|r| - |service|..] == service
    ensures prev == "" ==> r == service
  {
    prev + (if prev != "" then " " else "") + service
  }

  /** The prompt after clicking `tags` in order, starting from `prev`. */
  function AddTags(prev: string, tags: seq<string>): string {
    if |tags| == 0 then prev
    else AddServiceTag(AddTags(prev, tags[..|tags| - 1]), tags[|tags| - 1])
  }

  /** Clicking tags into an empty prompt yields the tags separated by single
      spaces: no leading space, no doubled space. */
  lemma {:induction false} AddTagsJoin(tags: seq<string>)
    requires forall i :: 0 <= i < |tags| ==> tags[i] != ""
    ensures AddTags("", tags) == Join(tags, " ")
  {
    if |tags| > 0 {
      var init := tags[..|tags| - 1];
      var x := tags[|tags| - 1];
      assert tags == init + [x];
      AddTagsJoin(init);
      if |init| == 0 {
        assert tags == [x];
      } else {
        JoinEmptyIffNoPieces(init, " ");
        JoinSnoc(init, x, " ");
      }
    }
  }

  /** Clicking every offered service once, in the order shown, into an empty
      prompt gives the services separated by single spaces. */
  lemma ClickingEveryService()
    ensures AddTags("", AwsServices) == Join(AwsServices, " ")
  {
    AddTagsJoin(AwsServices);
  }
}

=== FILE: dashboard.dfy ===
/** The dashboard's side of the job lifecycle: `handleDeploy` queues a
    `pending` row in the `deployments` table, and `fetchProjects` shows each
    project with the status of its latest deployment.

    The existence check and the insert are store calls whose failure is an
    oracle; the new row's id and creation time come from the store. Each
    deploy is atomic, so two overlapping clicks are not modelled. */
module Dashboard {
  import opened Common
  import opened Jobs

  /** The table the dashboard writes deployment requests to. */
  const DeploymentsTable := "deployments"

  datatype Project = Project(
    id: string,
    name: string,
    githubRepoUrl: Option<string>,
    branchName: string,
    deployedUrl: Option<string>)

  /** What the user is told. */
  datatype Notice =
    | MissingRepository     // project not found or without a repository URL
    | AlreadySubmitted      // a deployment row exists for the project
    | DeployFailed          // the existence check or the insert failed
    | Queued

  /** What the store does on the two calls `handleDeploy` makes. */
  datatype Calls = Calls(checkOk: bool, insertOk: bool, newId: string, userId: string, now: int)

  datatype DeployResult = DeployResult(db: Db, notice: Notice)

  /** `projects.find(p => p.id === id)`: the first project with that id. */
  function Find(projects: seq<Project>, id: string): (r: Option<nat>)
    ensures r.Some? ==>
      r.value < |projects| && projects[r.value].id == id && forall k :: 0 <= k < r.value ==> projects[k].id != id
    ensures r.None? ==> forall k :: 0 <= k < |projects| ==> projects[k].id != id
  {
    if |projects| == 0 then None
    else if projects[0].id == id then Some(0)
    else match Find(projects[1..], id)
      case None => None
      case Some(k) => Some(k + 1)
  }

  /** The number of rows of a project. */
  function RowsOf(rows: seq<Row>, projectId: string): (n: nat)
    ensures n <= |rows|
    ensures n == 0 <==> forall k :: 0 <= k < |rows| ==> rows[k].projectId != Some(projectId)
  {
    if |rows| == 0 then 0
    else (if rows[0].projectId == Some(projectId) then 1 else 0) + RowsOf(rows[1..], projectId)
  }

  /** The row `handleDeploy` inserts, as written: the URL goes to `repo_url`,
      `github_url` is left unset, and no stage is given. */
  function NewRow(p: Project, calls: Calls): Row {
    Row(calls.newId, Some(calls.userId), Some(p.id), None, p.githubRepoUrl, Some(p.branchName),
        None, Pending, None, None, calls.now)
  }

  /** The insert with the URL also stored where the workers read it. */
  function NewRowCorrected(p: Project, calls: Calls): Row {
    NewRow(p, calls).(githubUrl := p.githubRepoUrl)
  }

  /** `handleDeploy`, with the row to insert chosen by `insertRow`. The
      existence check is `maybeSingle()`, which fails when more than one row matches. */
  function HandleDeployWith(insertRow: (Project, Calls) -> Row, projects: seq<Project>,
                            projectId: string, db: Db, calls: Calls): (r: DeployResult)
  {
    var rows := TableRows(db, DeploymentsTable);
    match Find(projects, projectId)
    case None => DeployResult(db, MissingRepository)
    case Some(i) =>
      var p := projects[i];
      if !Truthy(p.githubRepoUrl) then DeployResult(db, MissingRepository)
      else if !calls.checkOk || RowsOf(rows, projectId) > 1 then DeployResult(db, DeployFailed)
      else if RowsOf(rows, projectId) == 1 then DeployResult(db, AlreadySubmitted)
      else if !calls.insertOk then DeployResult(db, DeployFailed)
      else DeployResult(db[DeploymentsTable := rows + [insertRow(p, calls)]], Queued)
  }

  /** `handleDeploy` as written. */
  function HandleDeploy(projects: seq<Project>, projectId: string, db: Db, calls: Calls): (r: DeployResult)
    // Nothing is written unless the project has a repository URL and no deployment row yet.
    ensures r.notice != Queued ==> r.db == db
    ensures r.notice == Queued <==>
      && Find(projects, projectId).Some?
      && Truthy(projects[Find(projects, projectId).value].githubRepoUrl)
      && calls.checkOk && calls.insertOk
      && RowsOf(TableRows(db, DeploymentsTable), projectId) == 0
    // Otherwise exactly one pending row is appended, carrying the project's URL and branch.
    ensures r.notice == Queued ==>
      var p := projects[Find(projects, projectId).value];
      var rows := TableRows(db, DeploymentsTable);
      && r.db == db[DeploymentsTable := rows + [NewRow(p, calls)]]
      && r.db[DeploymentsTable][|rows|].status == Pending
      && r.db[DeploymentsTable][|rows|].repoUrl == p.githubRepoUrl
      && r.db[DeploymentsTable][|rows|].branch == Some(p.branchName)
      && r.db[DeploymentsTable][|rows|].projectId == Some(projectId)
      && r.db[DeploymentsTable][|rows|].stage == None
  {
    HandleDeployWith(NewRow, projects, projectId, db, calls)
  }

  /** `handleDeploy` with the corrected insert; it decides exactly as written. */
  function HandleDeployCorrected(projects: seq<Project>, projectId: string, db: Db, calls: Calls): (r: DeployResult)
    ensures r.notice == HandleDeploy(projects, projectId, db, calls).notice
    ensures r.notice != Queued ==> r.db == db
    ensures r.notice == Queued ==>
      var p := projects[Find(projects, projectId).value];
      var rows := TableRows(db, DeploymentsTable);
      r.db == db[DeploymentsTable := rows + [NewRowCorrected(p, calls)]]
  {
    HandleDeployWith(NewRowCorrected, projects, projectId, db, calls)
  }

  /** A project card: the project and the status of its latest deployment. */
  datatype Card = Card(project: Project, deploymentStatus: Option<string>, deployedUrl: Option<string>)

  /** The latest deployment of a project: the newest by `created_at`. */
  function Latest(rows: seq<Row>, projectId: string): Option<nat> {
    FirstMin(rows, (r: Row) => r.projectId == Some(projectId), (r: Row) => -r.createdAt)
  }

  /** The card `fetchProjects` builds for one project. */
  function MergeCard(p: Project, rows: seq<Row>): (c: Card)
    ensures c.project == p
    // Without a deployment the card has no status and the project's own URL.
    ensures (forall k :: 0 <= k < |rows| ==> rows[k].projectId != Some(p.id)) ==>
      c.deploymentStatus == None && c.deployedUrl == p.deployedUrl
    // Otherwise the status is the newest deployment's.
    ensures (exists k :: 0 <= k < |rows| && rows[k].projectId == Some(p.id)) ==>
      exists k :: 0 <= k < |rows| && rows[k].projectId == Some(p.id)
        && c.deploymentStatus == Some(StatusName(rows[k].status))
        && (forall j :: 0 <= j < |rows| && rows[j].projectId == Some(p.id) ==> rows[j].createdAt <= rows[k].createdAt)
        && c.deployedUrl == (if Truthy(rows[k].deployedUrl) then rows[k].deployedUrl else p.deployedUrl)
  {
    match Latest(rows, p.id)
    case None => Card(p, None, p.deployedUrl)
    case Some(k) =>
      var d := rows[k];
      Card(p, OrElse(Some(StatusName(d.status)), None), OrElse(d.deployedUrl, p.deployedUrl))
  }

  /** `fetchProjects`: every project gets its card, in the order listed. */
  function FetchProjects(projects: seq<Project>, db: Db): (cards: seq<Card>)
    ensures |cards| == |projects|
    ensures forall i :: 0 <= i < |projects| ==> cards[i] == MergeCard(projects[i], TableRows(db, DeploymentsTable))
  {
    seq(|projects|, i requires 0 <= i < |projects| => MergeCard(projects[i], TableRows(db, DeploymentsTable)))
  }
}

=== FILE: jobs.dfy ===
/** The job store shared by the dashboard and the deployment workers: named
    tables of deployment rows, the single-row status update the workers
    perform, and the "first row by a key" selection behind
    `order(...).limit(1)`. */
module Jobs {
  import opened Common

  /** The statuses a deployment row can hold. */
  datatype Status = Pending | Processing | Completed | Failed | ToBeRemoved

  /** The literal stored in the `status` column. */
  function StatusName(s: Status): string {
    match s
    case Pending => "pending"
    case Processing => "processing"
    case Completed => "completed"
    case Failed => "failed"
    case ToBeRemoved => "toBeRemoved"
  }

  /** One row of a deployments table. Both `github_url` (read by the workers)
      and `repo_url` (written by the dashboard) are columns; either may be absent. */
  datatype Row = Row(
    id: string,
    userId: Option<string>,
    projectId: Option<string>,
    githubUrl: Option<string>,
    repoUrl: Option<string>,
    branch: Option<string>,
    stage: Option<string>,
    status: Status,
    errorMessage: Option<string>,
    deployedUrl: Option<string>,
    createdAt: int)

  /** The database: table name to rows, in storage order. */
  type Db = map<string, seq<Row>>

  /** The rows of a table; a table that does not exist reads as empty. */
  function TableRows(db: Db, table: string): seq<Row> {
    if table in db then db[table] else []
  }

  /** One row after an update of `status` and `error_message`. An absent error
      message is an `undefined` property, which the request body omits, so the
      stored message is then left as it was. */
  function SetStatus(row: Row, status: Status, err: Option<string>): Row {
    row.(status := status, errorMessage := if err.Some? then err else row.errorMessage)
  }

  /** `update({status, error_message}).eq('id', id)`: every row with that id is
      updated, every other row is left alone, and no row is added or removed. */
  function UpdateStatus(rows: seq<Row>, id: string, status: Status, err: Option<string>): (r: seq<Row>)
    ensures |r| == |rows|
    ensures forall k :: 0 <= k < |rows| && rows[k].id != id ==> r[k] == rows[k]
    ensures forall k :: 0 <= k < |rows| && rows[k].id == id ==> r[k] == SetStatus(rows[k], status, err)
  {
    if |rows| == 0 then []
    else
      var head := if rows[0].id == id then SetStatus(rows[0], status, err) else rows[0];
      [head] + UpdateStatus(rows[1..], id, status, err)
  }

  /** The index of the row that `filter(p).order(key, ascending).limit(1)`
      returns: a row satisfying `p` whose key is the least, and among rows with
      that least key the first in storage order. */
  function FirstMin<T>(xs: seq<T>, p: T -> bool, key: T -> int): (r: Option<nat>)
    ensures r.None? <==> forall k :: 0 <= k < |xs| ==> !p(xs[k])
    ensures r.Some? ==> r.value < |xs| && p(xs[r.value])
    ensures r.Some? ==> forall k :: 0 <= k < |xs| && p(xs[k]) ==> key(xs[r.value]) <= key(xs[k])
    ensures r.Some? ==> forall k :: 0 <= k < r.value && p(xs[k]) ==> key(xs[r.value]) < key(xs[k])
  {
    if |xs| == 0 then None
    else
      var rest := FirstMin(xs[1..], p, key);
      if p(xs[0]) && (rest.None? || key(xs[0]) <= key(xs[1..][rest.value])) then Some(0)
      else if rest.None? then None
      else
        assert forall k :: 1 <= k < |xs| ==> xs[k] == xs[1..][k - 1];
        Some(rest.value + 1)
  }

  /** The selection is unique: any index meeting its description is the one chosen. */
  lemma FirstMinUnique<T>(xs: seq<T>, p: T -> bool, key: T -> int, i: nat)
    requires i < |xs| && p(xs[i])
    requires forall k :: 0 <= k < |xs| && p(xs[k]) ==> key(xs[i]) <= key(xs[k])
    requires forall k :: 0 <= k < i && p(xs[k]) ==> key(xs[i]) < key(xs[k])
    ensures FirstMin(xs, p, key) == Some(i)
  {
    var r := FirstMin(xs, p, key);
    assert r.Some?;
    assert key(xs[r.value]) <= key(xs[i]) && key(xs[i]) <= key(xs[r.value]);
  }
}

=== FILE: lifecycle.dfy ===
/** The job lifecycle across components: a row the dashboard queues is the
    next job the current worker picks, and what the worker then clones; plus
    the worker's behaviour on a few concrete jobs. */
module Lifecycle {
  import opened Common
  import opened Jobs
  import opened Worker
  import opened Dashboard
  import WorkerFacts

  /** A pending row appended to a table with no other eligible row is the job
      the next cycle claims and clones. */
  lemma AppendedRowIsClonedNext(db: Db, row: Row, ws: set<string>, env: Env)
    requires forall k :: 0 <= k < |TableRows(db, DeploymentsTable)| ==>
      !Eligible(Current, TableRows(db, DeploymentsTable)[k].status)
    requires row.status == Pending
    requires env.fetchOk && env.tempDir.Made?
    ensures var c := PollForJobs(Current, db[DeploymentsTable := TableRows(db, DeploymentsTable) + [row]], ws, env);
      && |c.events| >= 3
      && c.events[0] == Write(row.id, Processing, None)
      && c.events[2] == Exec(Execute(Cmd(Clone, CloneLine(row, env.tempDir.dir), None, env), env))
  {
    var rows := TableRows(db, DeploymentsTable) + [row];
    var db' := db[DeploymentsTable := rows];
    var n := |rows| - 1;
    assert TableRows(db', Table(Current)) == rows;
    FirstMinUnique(rows, (r: Row) => Eligible(Current, r.status), (r: Row) => r.createdAt, n);
    assert Oldest(Current, rows) == Some(n);
    var d := env.tempDir.dir;
    var claimed := Report(rows, row.id, Processing, None, env);
    var o := ProcessRepository(Current, row, claimed, ws, env);
    var ran := RunSteps(Current, row, d, env);
    assert PollForJobs(Current, db', ws, env).events == [Write(row.id, Processing, None)] + o.events;
    assert o.events == [MakeDir(d)] + Execs(ran) + [Verdict(row.id, o.result), RemoveDir(d)];
    WorkerFacts.FirstCommandIsClone(Current, row, d, env);
  }

  /** As written, the row the dashboard queues carries its URL in `repo_url`
      only, so the worker's clone command names the repository `undefined`. */
  lemma QueuedDeploymentClonesUndefined(projects: seq<Project>, projectId: string, db: Db,
                                        calls: Calls, ws: set<string>, env: Env)
    requires HandleDeploy(projects, projectId, db, calls).notice == Queued
    requires forall k :: 0 <= k < |TableRows(db, DeploymentsTable)| ==>
      !Eligible(Current, TableRows(db, DeploymentsTable)[k].status)
    requires env.fetchOk && env.tempDir.Made?
    ensures var p := projects[Find(projects, projectId).value];
      var c := PollForJobs(Current, HandleDeploy(projects, projectId, db, calls).db, ws, env);
      && |c.events| >= 3
      && c.events[2].Exec?
      && c.events[2].ran.cmd.inv.line ==
           "git clone --depth 1 --branch " + Or(Some(p.branchName), DefaultBranch) + " " + "undefined" + " " + env.tempDir.dir
  {
    var p := projects[Find(projects, projectId).value];
    AppendedRowIsClonedNext(db, NewRow(p, calls), ws, env);
  }

  /** With the corrected insert, the queued row is cloned from the project's
      repository at the project's branch and deployed to the default stage. */
  lemma QueuedDeploymentClonesProjectRepository(projects: seq<Project>, projectId: string, db: Db,
                                                calls: Calls, ws: set<string>, env: Env)
    requires HandleDeployCorrected(projects, projectId, db, calls).notice == Queued
    requires forall k :: 0 <= k < |TableRows(db, DeploymentsTable)| ==>
      !Eligible(Current, TableRows(db, DeploymentsTable)[k].status)
    requires env.fetchOk && env.tempDir.Made?
    ensures var p := projects[Find(projects, projectId).value];
      var c := PollForJobs(Current, HandleDeployCorrected(projects, projectId, db, calls).db, ws, env);
      && p.githubRepoUrl.Some?
      && |c.events| >= 3
      && c.events[2].Exec?
      && c.events[2].ran.cmd.inv.line ==
           "git clone --depth 1 --branch " + Or(Some(p.branchName), DefaultBranch) + " "
           + p.githubRepoUrl.value + " " + env.tempDir.dir
      && FinalLine(Current, NewRowCorrected(p, calls)) == "npx sst " + "deploy" + " --stage " + "production"
  {
    var p := projects[Find(projects, projectId).value];
    var row := NewRowCorrected(p, calls);
    AppendedRowIsClonedNext(db, row, ws, env);
    assert row.stage == None && row.status == Pending && row.githubUrl == p.githubRepoUrl;
    assert Action(Current, row) == "deploy" && Or(row.stage, DefaultStage) == "production";
  }

  // Concrete jobs.

  const Dir := "/tmp/deploy-1"

  function J1(status: Status, branch: Option<string>, stage: Option<string>): Row {
    Row("J1", None, None, Some("https://example.com/r.git"), None, branch, stage, status, None, None, 1)
  }

  /** An environment in which every command runs as `run` says and every
      other effect succeeds. */
  function Healthy(run: Invocation -> CmdOutcome): Env {
    Env(None, true, Made(Dir), run, true, (s: Status) => true)
  }

  function Lines(ran: seq<Ran>): (lines: seq<string>)
    ensures |lines| == |ran|
  {
    seq(|ran|, i requires 0 <= i < |ran| => ran[i].cmd.inv.line)
  }

  /** A pending job on branch `feature-x` and stage `staging` whose commands
      all succeed: the four commands run with those values, and the job ends
      `completed` with no error message, its directory gone. */
  lemma FeatureBranchDeploys()
    ensures var env := Healthy((i: Invocation) => Exit0("ok"));
      var job := J1(Pending, Some("feature-x"), Some("staging"));
      var o := ProcessRepository(Current, job, [job], {}, env);
      && Lines(RunSteps(Current, job, Dir, env)) == [
           "git clone --depth 1 --branch " + "feature-x" + " " + "https://example.com/r.git" + " " + Dir,
           "npm install", "npx sst version", "npx sst " + "deploy" + " --stage " + "staging"]
      && o.rows[0].status == Completed && o.rows[0].errorMessage == None
      && o.result == Returned("ok")
      && o.workspace == {}
  {
    var env := Healthy((i: Invocation) => Exit0("ok"));
    var job := J1(Pending, Some("feature-x"), Some("staging"));
    assert !ProbeFails(Dir, env);
  }

  /** The same job when the clone fails with `branch not found`: nothing else
      runs, the job ends `failed` with that message, and the directory is gone. */
  lemma MissingBranchFails()
    ensures var env := Healthy((i: Invocation) => NonZero("branch not found", "Command failed"));
      var job := J1(Pending, Some("feature-x"), Some("staging"));
      var o := ProcessRepository(Current, job, [job], {}, env);
      && |RunSteps(Current, job, Dir, env)| == 1
      && o.rows[0].status == Failed && o.rows[0].errorMessage == Some("branch not found")
      && o.result == Threw("branch not found")
      && o.workspace == {}
  {
  }

  /** A `toBeRemoved` job with no branch and no stage clones `main` and
      removes the `production` stage. */
  lemma RemovalUsesDefaults()
    ensures var job := J1(ToBeRemoved, None, None);
      && CloneLine(job, Dir) == "git clone --depth 1 --branch " + "main" + " " + "https://example.com/r.git" + " " + Dir
      && FinalLine(Current, job) == "npx sst " + "remove" + " --stage " + "production"
      && FinalLine(Legacy, job) == "npx sst " + "deploy" + " --stage " + "production"
  {
  }

  /** With no eligible job a cycle writes nothing and changes nothing. */
  lemma IdleCycleWritesNothing(run: Invocation -> CmdOutcome)
    ensures var db := map["deployments" := [J1(Completed, None, None), J1(Failed, None, None)]];
      var c := PollForJobs(Current, db, {}, Healthy(run));
      c.events == [] && c.db == db && c.handled == None
  {
    var db := map["deployments" := [J1(Completed, None, None), J1(Failed, None, None)]];
    assert Oldest(Current, db["deployments"]).None?;
  }
}

=== FILE: repo_contents.dfy ===
/** The `sendRepoContents` edge function: it clones a GitHub repository into a
    temporary directory, keeps the files that look like text, uploads them in
    batches of 100 to the vector store, and removes the directory.

    The file walk, the file reads, `git`, the schema check and the batch
    uploads are oracles: `Services` says what each of them does. */
module RepoContents {
  import opened Common
  import opened Text

  /** The branch cloned when the request names none. A destructuring default
      applies only to an absent property, so an empty branch stays empty. */
  function BranchOrDefault(branch: Option<string>): (b: string)
    ensures branch.None? ==> b == "main"
    ensures branch.Some? ==> b == branch.value
  {
    if branch.Some? then branch.value else "main"
  }

  /** The URL handed to git: with a token and a GitHub URL, the token is
      spliced in as user name after the first `https://`. */
  function CloneUrl(repoUrl: string, token: Option<string>): (r: string)
    // The URL changes only when a token is given for a GitHub URL.
    ensures r != repoUrl ==> Truthy(token) && Contains(repoUrl, "github.com")
    // Then the token appears as user name wherever the URL had its first `https://`.
    ensures Truthy(token) && Contains(repoUrl, "github.com") && Contains(repoUrl, "https://") ==>
      var i := IndexOf(repoUrl, "https://").value;
      && OccursAt(r, "https://" + token.value + "@", i)
      && |r| == |repoUrl| + |token.value| + 1
  {
    if Truthy(token) && Contains(repoUrl, "github.com") then
      ReplaceFirst(repoUrl, "https://", "https://" + token.value + "@")
    else repoUrl
  }

  /** An https GitHub URL carries the token right after the scheme. */
  lemma CloneUrlCarriesToken(rest: string, token: string)
    requires token != ""
    requires Contains("https://" + rest, "github.com")
    ensures CloneUrl("https://" + rest, Some(token)) == "https://" + token + "@" + rest
  {
    ReplaceLeading("https://", rest, "https://" + token + "@");
  }

  /** Without a token, or for a URL that does not mention github.com, the URL is used as given. */
  lemma CloneUrlUnchanged(repoUrl: string, token: Option<string>)
    requires !Truthy(token) || !Contains(repoUrl, "github.com")
    ensures CloneUrl(repoUrl, token) == repoUrl
  {
  }

  /** The arguments `git` is run with: a shallow clone of one branch. */
  function GitArgs(branch: string, cloneUrl: string, dir: string): (a: seq<string>)
    ensures |a| == 7 && a[4] == branch && a[5] == cloneUrl && a[6] == dir
  {
    ["clone", "--depth", "1", "--branch", branch, cloneUrl, dir]
  }

  /** How running `git` ends: exit code 0, another code with its standard
      error, or a throw from `output()` itself (git cannot be spawned). */
  datatype GitExit = GitOk | GitFailed(stderr: string) | GitThrew(message: string)

  /** What `cloneRepository` ends with: the checkout directory, or an error
      together with the directory it had already made, if any. */
  datatype Cloned = Cloned(dir: string) | CloneFailed(message: string, made: Option<string>)

  /** `cloneRepository`. */
  function CloneRepository(repoUrl: string, branch: string, token: Option<string>,
                           tempDir: TempDir, git: seq<string> -> GitExit): (c: Cloned)
    ensures tempDir.NotMade? ==> c == CloneFailed(tempDir.message, None)
    ensures tempDir.Made? ==>
      var exit := git(GitArgs(branch, CloneUrl(repoUrl, token), tempDir.dir));
      && (exit.GitOk? ==> c == Cloned(tempDir.dir))
      && (exit.GitFailed? ==> c == CloneFailed("Git clone failed: " + exit.stderr, Some(tempDir.dir)))
      && (exit.GitThrew? ==> c == CloneFailed(exit.message, Some(tempDir.dir)))
  {
    match tempDir
    case NotMade(m) => CloneFailed(m, None)
    case Made(d) =>
      match git(GitArgs(branch, CloneUrl(repoUrl, token), d))
      case GitOk => Cloned(d)
      case GitFailed(err) => CloneFailed("Git clone failed: " + err, Some(d))
      case GitThrew(m) => CloneFailed(m, Some(d))
  }

  /** The extensions that mark a file as text. */
  const TextExtensions: set<string> := {
    ".ts", ".tsx", ".js", ".jsx", ".py", ".java", ".go", ".rs", ".c", ".cpp", ".h",
    ".css", ".scss", ".html", ".vue", ".svelte", ".json", ".yaml", ".yml", ".toml",
    ".md", ".txt", ".sh", ".bash", ".env", ".gitignore", ".sql", ".graphql", ".xml",
    ".csv", ".rb", ".php", ".swift", ".kt", ".scala", ".r", ".m", ".cs"
  }

  /** A file's extension: a dot and the lower-cased text after the last dot of
      its name, or nothing when the name has no dot. */
  function Extension(name: string): (r: string)
    ensures r == "" <==> '.' !in name
    ensures r != "" ==> r[0] == '.' && '.' !in r[1..]
    ensures r != "" ==>
      |r| <= |name| && name[|name| - |r|] == '.' && r[1..] == ToLower(name[|name| - |r| + 1..])
  {
    if '.' in name then
      var seg := LastSegment(name, '.');
      assert |seg| < |name|;
      var low := ToLower(seg);
      assert forall i :: 0 <= i < |low| ==> low[i] != '.';
      ("." + low)
    else ""
  }

  /** A file is kept when its extension is a text one or it has none. */
  predicate Kept(extension: string) {
    extension in TextExtensions || extension == ""
  }

  function StripLeadingSlash(s: string): string {
    if |s| > 0 && s[0] == '/' then s[1..] else s
  }

  /** A walked path relative to the checkout: the first occurrence of the
      directory is removed, then one leading slash. */
  function RelativePath(path: string, dir: string): (r: string)
    ensures |r| <= |path|
    // A path that does not mention the directory only loses a leading slash.
    ensures !Contains(path, dir) ==> r == StripLeadingSlash(path)
    // One that does is shorter by the directory, and by a slash right after it.
    ensures Contains(path, dir) ==> |r| <= |path| - |dir|
  {
    StripLeadingSlash(ReplaceFirst(path, dir, ""))
  }

  /** A path inside the checkout comes back relative to it. */
  lemma RelativePathInsideDir(dir: string, rest: string)
    ensures RelativePath(dir + "/" + rest, dir) == rest
  {
    assert dir + "/" + rest == dir + ("/" + rest);
    ReplaceLeading(dir, "/" + rest, "");
    assert "" + ("/" + rest) == "/" + rest;
  }

  /** What reading one file gives: its text and size, or a failure. */
  datatype ReadOutcome = ReadOk(content: string, size: nat) | ReadFailed

  /** One file the walk visits. */
  datatype Entry = Entry(path: string, name: string, read: ReadOutcome)

  /** One file record uploaded to the vector store. */
  datatype FileRec = FileRec(path: string, content: string, extension: string, size: nat,
                             repository: string, branch: string)

  /** One step of the walk: a kept, readable file gives one record; a file with
      another extension, or one that fails to read, gives none. */
  function ReadOne(e: Entry, dir: string, repoUrl: string, branch: string): (r: seq<FileRec>)
    ensures |r| <= 1
    ensures |r| == 1 <==> Kept(Extension(e.name)) && e.read.ReadOk?
    ensures |r| == 1 ==> r[0] == FileRec(RelativePath(e.path, dir), e.read.content,
                                         Extension(e.name), e.read.size, repoUrl, branch)
  {
    var ext := Extension(e.name);
    if !Kept(ext) then []
    else match e.read
      case ReadFailed => []
      case ReadOk(content, size) => [FileRec(RelativePath(e.path, dir), content, ext, size, repoUrl, branch)]
  }

  /** `readAllFiles` over the files the walk visits, in walk order. */
  function ReadAllFiles(walked: seq<Entry>, dir: string, repoUrl: string, branch: string): (r: seq<FileRec>)
    ensures |r| <= |walked|
  {
    if |walked| == 0 then []
    else ReadOne(walked[0], dir, repoUrl, branch) + ReadAllFiles(walked[1..], dir, repoUrl, branch)
  }

  /** Every record read has a text extension or none. That each record
      comes from a readable entry of the walk is stated by `ReadOne`
      together with `ReadAllFilesAppend`. */
  lemma {:induction false} ReadAllFilesKeepsText(walked: seq<Entry>, dir: string, repoUrl: string, branch: string)
    ensures forall k :: 0 <= k < |ReadAllFiles(walked, dir, repoUrl, branch)| ==>
      Kept(ReadAllFiles(walked, dir, repoUrl, branch)[k].extension)
  {
    if |walked| > 0 {
      ReadAllFilesKeepsText(walked[1..], dir, repoUrl, branch);
      var h := ReadOne(walked[0], dir, repoUrl, branch);
      var t := ReadAllFiles(walked[1..], dir, repoUrl, branch);
      var r: seq<FileRec> := h + t;
      assert ReadAllFiles(walked, dir, repoUrl, branch) == r;
      forall k | 0 <= k < |r|
        ensures Kept(r[k].extension)
      {
        if k >= |h| {
          assert r[k] == t[k - |h|];
        }
      }
    }
  }

  lemma ConcatAssociative<T>(a: seq<T>, b: seq<T>, c: seq<T>)
    ensures a + (b + c) == (a + b) + c
  {
  }

  /** Reading a walk that starts with an entry reads that entry first. */
  lemma ReadAllFilesFirst(a: seq<Entry>, b: seq<Entry>, dir: string, repoUrl: string, branch: string)
    requires |a| > 0
    ensures ReadAllFiles(a + b, dir, repoUrl, branch)
         == ReadOne(a[0], dir, repoUrl, branch) + ReadAllFiles(a[1..] + b, dir, repoUrl, branch)
  {
    assert (a + b)[0] == a[0];
    assert (a + b)[1..] == a[1..] + b;
  }

  /** The walk is streamed: reading two stretches of it is reading each in
      turn, so a file that fails to read drops out without stopping the rest. */
  lemma {:induction false} ReadAllFilesAppend(a: seq<Entry>, b: seq<Entry>, dir: string, repoUrl: string, branch: string)
    ensures ReadAllFiles(a + b, dir, repoUrl, branch)
         == ReadAllFiles(a, dir, repoUrl, branch) + ReadAllFiles(b, dir, repoUrl, branch)
  {
    if |a| == 0 {
      assert a + b == b;
    } else {
      var h := ReadOne(a[0], dir, repoUrl, branch);
      var ra := ReadAllFiles(a[1..], dir, repoUrl, branch);
      var rb := ReadAllFiles(b, dir, repoUrl, branch);
      ReadAllFilesFirst(a, b, dir, repoUrl, branch);
      ReadAllFilesAppend(a[1..], b, dir, repoUrl, branch);
      assert ReadAllFiles(a, dir, repoUrl, branch) == h + ra;
      ConcatAssociative(h, ra, rb);
    }
  }

  const BatchSize := 100

  /** The slices `files.slice(i, i + 100)` for i = 0, 100, 200, ... */
  function Batches<T>(xs: seq<T>): (r: seq<seq<T>>)
    ensures forall k :: 0 <= k < |r| ==> 1 <= |r[k]| <= BatchSize
    ensures forall k :: 0 <= k < |r| - 1 ==> |r[k]| == BatchSize
  {
    if |xs| == 0 then []
    else if |xs| <= BatchSize then [xs]
    else [xs[..BatchSize]] + Batches(xs[BatchSize..])
  }

  function Concat<T>(xss: seq<seq<T>>): seq<T> {
    if |xss| == 0 then [] else xss[0] + Concat(xss[1..])
  }

  /** The batches, put back together, are the file list: every file is in
      exactly one batch, and the order is kept. */
  lemma {:induction false} BatchesConcat<T>(xs: seq<T>)
    ensures Concat(Batches(xs)) == xs
    decreases |xs|
  {
    if |xs| == 0 {
    } else if |xs| <= BatchSize {
      assert Concat([xs]) == xs + Concat([xs][1..]);
    } else {
      var r := Batches(xs);
      BatchesConcat(xs[BatchSize..]);
      assert r[1..] == Batches(xs[BatchSize..]);
      assert xs[..BatchSize] + xs[BatchSize..] == xs;
    }
  }

  /** There are ceil(n / 100) batches. */
  lemma {:induction false} BatchesCount<T>(xs: seq<T>)
    ensures |Batches(xs)| == (|xs| + BatchSize - 1) / BatchSize
    decreases |xs|
  {
    if |xs| > BatchSize {
      BatchesCount(xs[BatchSize..]);
    }
  }

  /** How one batch request ends: accepted, answered with a status that is
      not ok and the body `text`, or a throw (the `fetch` rejected, or reading
      the body failed) with that error's message. */
  datatype BatchResponse = Accepted | Rejected(text: string) | Thrown(message: string)

  /** The message `uploadToWeaviate` throws with for a batch that was not accepted. */
  function FailureMessage(b: BatchResponse): string
    requires !b.Accepted?
  {
    match b
    case Rejected(t) => "Failed to upload batch: " + t
    case Thrown(m) => m
  }

  /** How many batch requests were sent, and the error thrown, if any. */
  datatype UploadResult = UploadResult(posted: nat, failure: Option<string>)

  /** Sending batches `k`, `k+1`, ... of `count`: the first batch that is not
      accepted throws and nothing after it is sent. */
  function PostFrom(count: nat, answer: nat -> BatchResponse, k: nat): (u: UploadResult)
    requires k <= count
    ensures k <= u.posted <= count
    ensures u.failure.None? ==> u.posted == count
    ensures u.failure.None? <==> forall j :: k <= j < count ==> answer(j).Accepted?
    ensures forall j :: k <= j < u.posted && (u.failure.None? || j < u.posted - 1) ==> answer(j).Accepted?
    ensures u.failure.Some? ==>
      u.posted > k && !answer(u.posted - 1).Accepted?
      && u.failure.value == FailureMessage(answer(u.posted - 1))
    decreases count - k
  {
    if k == count then UploadResult(count, None)
    else if answer(k).Accepted? then PostFrom(count, answer, k + 1)
    else UploadResult(k + 1, Some(FailureMessage(answer(k))))
  }

  /** One step of the upload: an accepted batch moves on to the next, any
      other answer ends the upload there. */
  lemma PostFromStep(count: nat, answer: nat -> BatchResponse, k: nat)
    requires k < count
    ensures answer(k).Accepted? ==> PostFrom(count, answer, k) == PostFrom(count, answer, k + 1)
    ensures !answer(k).Accepted? ==>
      PostFrom(count, answer, k) == UploadResult(k + 1, Some(FailureMessage(answer(k))))
  {
  }

  /** `uploadToWeaviate`, batch by batch. */
  function Upload(files: seq<FileRec>, answer: nat -> BatchResponse): UploadResult {
    PostFrom(|Batches(files)|, answer, 0)
  }

  /** The batches from index `i` on are the slice up to `i + 100` (or the end)
      followed by the batches from there. */
  lemma BatchesFrom<T>(xs: seq<T>, i: nat, next: nat)
    requires i < |xs|
    requires next == if i + BatchSize <= |xs| then i + BatchSize else |xs|
    ensures Batches(xs[i..]) == [xs[i..next]] + Batches(xs[next..])
  {
    if |xs[i..]| <= BatchSize {
      assert xs[i..next] == xs[i..] && xs[next..] == [];
    } else {
      assert xs[i..][..BatchSize] == xs[i..next];
      assert xs[i..][BatchSize..] == xs[next..];
    }
  }

  /** `uploadToWeaviate` as the source writes it, an index loop stepping by 100:
      the requests sent are the first batches in order, and the outcome is the
      batch-by-batch one. */
  method UploadToWeaviate(files: seq<FileRec>, answer: nat -> BatchResponse)
    returns (sent: seq<seq<FileRec>>, failure: Option<string>)
    ensures |sent| <= |Batches(files)| && sent == Batches(files)[..|sent|]
    ensures UploadResult(|sent|, failure) == Upload(files, answer)
  {
    sent := [];
    failure := None;
    var i := 0;
    while i < |files|
      invariant 0 <= i <= |files|
      invariant Batches(files) == sent + Batches(files[i..])
      invariant Upload(files, answer) == PostFrom(|Batches(files)|, answer, |sent|)
      decreases |files| - i
    {
      // `i += 100`; once past the end the loop test treats it as the end.
      var next := if i + BatchSize <= |files| then i + BatchSize else |files|;
      var batch := files[i..next];
      BatchesFrom(files, i, next);
      PostFromStep(|Batches(files)|, answer, |sent|);
      ConcatAssociative(sent, [batch], Batches(files[next..]));
      sent := sent + [batch];
      if !answer(|sent| - 1).Accepted? {
        failure := Some(FailureMessage(answer(|sent| - 1)));
        return;
      }
      i := next;
    }
  }

  /** The request body the handler reads, or the error `req.json()` throws. */
  datatype Json =
    | Parsed(githubUrl: Option<string>, branch: Option<string>, githubToken: Option<string>)
    | Unparsable(message: string)

  datatype Request = Preflight | Post(body: Json)

  /** What the services around the handler do on this request. */
  datatype Services = Services(
    schemaError: Option<string>,
    tempDir: TempDir,
    git: seq<string> -> GitExit,
    walked: seq<Entry>,
    answer: nat -> BatchResponse,
    removeOk: bool)

  datatype Response = Response(status: nat, error: Option<string>, filesProcessed: Option<nat>)

  /** The response, the temporary directories still on disk, the arguments git
      was run with (if it was), and how many batch requests were sent. */
  datatype Handled = Handled(response: Response, workspace: set<string>,
                             gitArgs: Option<seq<string>>, posted: nat)

  /** `cleanup`: removal either works or is only logged. */
  function Cleanup(ws: set<string>, dir: string, ok: bool): set<string> {
    if ok then ws - {dir} else ws + {dir}
  }

  function ErrorResponse(status: nat, message: string): Response {
    Response(status, Some(message), None)
  }

  /** The handler. `removeFailedClone` chooses between the source as written,
      where a failed clone's directory is never removed, and the corrected
      handler that removes it. */
  function ServeWith(removeFailedClone: bool, req: Request, svc: Services, ws: set<string>): Handled {
    match req
    case Preflight => Handled(Response(200, None, None), ws, None, 0)
    case Post(Unparsable(m)) => Handled(ErrorResponse(500, m), ws, None, 0)
    case Post(Parsed(url, branchArg, token)) =>
      if !Truthy(url) then Handled(ErrorResponse(400, "github_url is required"), ws, None, 0)
      else if svc.schemaError.Some? then Handled(ErrorResponse(500, svc.schemaError.value), ws, None, 0)
      else
        var branch := BranchOrDefault(branchArg);
        var args := if svc.tempDir.Made? then Some(GitArgs(branch, CloneUrl(url.value, token), svc.tempDir.dir)) else None;
        match CloneRepository(url.value, branch, token, svc.tempDir, svc.git)
        case CloneFailed(m, made) =>
          var left := if made.Some? then (if removeFailedClone then Cleanup(ws, made.value, svc.removeOk) else ws + {made.value}) else ws;
          Handled(ErrorResponse(500, m), left, args, 0)
        case Cloned(d) =>
          var files := ReadAllFiles(svc.walked, d, url.value, branch);
          var left := Cleanup(ws, d, svc.removeOk);
          if |files| == 0 then
            Handled(ErrorResponse(400, "No supported files found in repository"), left, args, 0)
          else
            var u := Upload(files, svc.answer);
            if u.failure.Some? then Handled(ErrorResponse(500, u.failure.value), left, args, u.posted)
            else Handled(Response(200, None, Some(|files|)), left, args, u.posted)
  }

  /** The request gets as far as the file walk: a POST whose body names a
      URL, the schema in place, the directory made and git exiting 0. */
  predicate ClonesOk(req: Request, svc: Services) {
    && req.Post? && req.body.Parsed? && Truthy(req.body.githubUrl) && svc.schemaError.None?
    && svc.tempDir.Made?
    && svc.git(GitArgs(BranchOrDefault(req.body.branch),
                       CloneUrl(req.body.githubUrl.value, req.body.githubToken), svc.tempDir.dir)).GitOk?
  }

  /** The records read from the checkout of a request that got that far. */
  function FilesRead(req: Request, svc: Services): seq<FileRec>
    requires ClonesOk(req, svc)
  {
    ReadAllFiles(svc.walked, svc.tempDir.dir, req.body.githubUrl.value, BranchOrDefault(req.body.branch))
  }

  /** The git call of a request failed after its directory was made. */
  predicate GitCallFailed(svc: Services, h: Handled) {
    svc.tempDir.Made? && h.gitArgs.Some? && !svc.git(h.gitArgs.value).GitOk?
  }

  /** The handler as written: it answers as the corrected one does, but the
      directory of a request whose git call failed is never removed. */
  function ServeAsWritten(req: Request, svc: Services, ws: set<string>): (h: Handled)
    ensures GitCallFailed(svc, h) ==> svc.tempDir.dir in h.workspace
    ensures !GitCallFailed(svc, h) ==> h == Serve(req, svc, ws)
    ensures h.response == Serve(req, svc, ws).response && h.posted == Serve(req, svc, ws).posted
  {
    ServeWith(false, req, svc, ws)
  }

  /** The handler with a failed clone's directory removed like every other. */
  function Serve(req: Request, svc: Services, ws: set<string>): (h: Handled)
    // A missing URL is refused before anything is cloned.
    ensures req.Post? && req.body.Parsed? && !Truthy(req.body.githubUrl) ==>
      h.response == ErrorResponse(400, "github_url is required") && h.gitArgs == None && h.workspace == ws
    // An unreadable body is a 500 with the parser's message.
    ensures req.Post? && req.body.Unparsable? ==>
      h.response == ErrorResponse(500, req.body.message) && h.posted == 0 && h.gitArgs == None
    // A schema error is a 500 with its message, before anything is cloned.
    ensures req.Post? && req.body.Parsed? && Truthy(req.body.githubUrl) && svc.schemaError.Some? ==>
      h.response == ErrorResponse(500, svc.schemaError.value) && h.posted == 0 && h.gitArgs == None
    // A failed clone is a 500 with the clone's own error (the mkdtemp error,
    // `Git clone failed: <stderr>`, or the spawn error), and nothing is uploaded.
    ensures req.Post? && req.body.Parsed? && Truthy(req.body.githubUrl) && svc.schemaError.None? ==>
      var c := CloneRepository(req.body.githubUrl.value, BranchOrDefault(req.body.branch),
                               req.body.githubToken, svc.tempDir, svc.git);
      c.CloneFailed? ==> h.response == ErrorResponse(500, c.message) && h.posted == 0
    // A checkout without a kept file is a 400, and nothing is uploaded.
    ensures ClonesOk(req, svc) && |FilesRead(req, svc)| == 0 ==>
      h.response == ErrorResponse(400, "No supported files found in repository") && h.posted == 0
    // Otherwise the batches are posted in order up to the first one not
    // accepted, whose error is a 500; when all are accepted, a 200 reports
    // how many files were kept.
    ensures ClonesOk(req, svc) && |FilesRead(req, svc)| > 0 ==>
      var u := Upload(FilesRead(req, svc), svc.answer);
      && h.posted == u.posted
      && (u.failure.Some? ==> h.response == ErrorResponse(500, u.failure.value))
      && (u.failure.None? ==> h.response == Response(200, None, Some(|FilesRead(req, svc)|)))
    // So a POST succeeds only that way.
    ensures h.response.status == 200 && req.Post? ==>
      && ClonesOk(req, svc) && |FilesRead(req, svc)| > 0
      && Upload(FilesRead(req, svc), svc.answer).failure.None?
      && h.response.filesProcessed == Some(|FilesRead(req, svc)|)
    // Every temporary directory made is gone afterwards when removal works.
    ensures svc.removeOk && (svc.tempDir.Made? ==> svc.tempDir.dir !in ws) ==> h.workspace == ws
    // When removal fails, at most the request's own directory is left over.
    ensures h.workspace <= ws + (if svc.tempDir.Made? then {svc.tempDir.dir} else {})
  {
    ServeWith(true, req, svc, ws)
  }

  /** As written, a clone that fails leaves its temporary directory behind even
      when removal would work: the directory is made inside `cloneRepository`,
      which throws before the handler learns its name, so the handler's cleanup
      has nothing to remove. */
  lemma FailedCloneLeaksDirectory(url: string, branch: Option<string>, token: Option<string>,
                                  svc: Services, ws: set<string>)
    requires url != "" && svc.schemaError.None? && svc.removeOk
    requires svc.tempDir.Made? && svc.tempDir.dir !in ws
    requires !svc.git(GitArgs(BranchOrDefault(branch), CloneUrl(url, token), svc.tempDir.dir)).GitOk?
    ensures var h := ServeAsWritten(Post(Parsed(Some(url), branch, token)), svc, ws);
      h.response.status == 500 && h.workspace == ws + {svc.tempDir.dir} && h.workspace != ws
  {
  }

  /** The correction changes nothing but the directories left on disk, and
      those only when git itself failed on a directory already made. */
  lemma CorrectionOnlyAffectsFailedClones(req: Request, svc: Services, ws: set<string>)
    ensures var a := ServeAsWritten(req, svc, ws);
      var h := Serve(req, svc, ws);
      && a.response == h.response && a.gitArgs == h.gitArgs && a.posted == h.posted
      && (a.workspace != h.workspace ==>
            && req.Post? && req.body.Parsed? && Truthy(req.body.githubUrl) && svc.schemaError.None?
            && svc.tempDir.Made? && h.gitArgs.Some? && !svc.git(h.gitArgs.value).GitOk?)
  {
  }

  /** A failure to remove the directory is only logged: the response, the git
      call and the uploads are the same whether removal works or not. */
  lemma ResponseIgnoresCleanup(req: Request, svc: Services, ws: set<string>, removeOk: bool)
    ensures var h := Serve(req, svc, ws);
      var h' := Serve(req, svc.(removeOk := removeOk), ws);
      h'.response == h.response && h'.gitArgs == h.gitArgs && h'.posted == h.posted
  {
  }
}

=== FILE: setup_chat.dfy ===
/** The full-page deployment wizard: choose a repository, then refine the
    configuration in a chat whose whole transcript goes into every prompt sent
    to `generate-sst-config`. Each send is atomic: it completes, reply
    included, before the next one starts, so overlapping sends are not
    modelled. Message ids, timestamps and notices are not modelled. */
module SetupChat {
  import opened Common
  import opened Text
  import opened ConfigReply
  import Dashboard

  datatype Role = User | Assistant

  /** Which part of a reply a code block shows. */
  datatype BlockKind = SstConfig | SuggestedChanges | IamPolicy

  datatype Block = Block(kind: BlockKind, code: Option<string>, language: string, caption: string)

  datatype Message = Message(role: Role, content: string, blocks: seq<Block>)

  datatype State = State(
    step: int,
    selectedProject: string,  // "" when none is chosen
    selectedBranch: string,
    messages: seq<Message>,
    input: string,
    generating: bool)

  /** The shortest trimmed input that is sent, in UTF-16 code units. */
  const MinPromptLength := 10

  /** The text an assistant message shows when the reply has no suggested changes. */
  const DefaultReplyText := "Here's your configuration:"

  /** One line of the transcript: `User: …` or `Assistant: …`. */
  function Render(m: Message): (line: string)
    ensures |line| > |m.content|
  {
    (if m.role == User then "User" else "Assistant") + ": " + m.content
  }

  function Rendered(ms: seq<Message>): (lines: seq<string>)
    ensures |lines| == |ms|
    ensures forall i :: 0 <= i < |ms| ==> lines[i] == Render(ms[i])
  {
    seq(|ms|, i requires 0 <= i < |ms| => Render(ms[i]))
  }

  /** The transcript of a conversation: its messages, rendered, separated by blank lines. */
  function Transcript(ms: seq<Message>): string {
    Join(Rendered(ms), "\n\n")
  }

  /** The prompt sent for `content` after the conversation `history`: the
      transcript followed by the new user turn, or the bare content when there
      is no history yet. */
  function FullPrompt(history: seq<Message>, content: string): (p: string)
    // The new turn ends the prompt, and without history it is the whole prompt.
    ensures |p| >= |content| && p[|p| - |content|..] == content
    ensures |history| == 0 ==> p == content
  {
    var context := Transcript(history);
    if context != "" then context + "\n\nUser: " + content else content
  }

  /** A conversation's transcript is empty exactly when it has no messages. */
  lemma TranscriptEmptyIffNoMessages(ms: seq<Message>)
    ensures Transcript(ms) == "" <==> |ms| == 0
  {
    JoinEmptyIffNoPieces(Rendered(ms), "\n\n");
  }

  /** Once a conversation has begun, the prompt is exactly the transcript of
      the conversation with the new user turn appended; before that it is the
      bare content. */
  lemma FullPromptIsTranscript(history: seq<Message>, content: string)
    ensures |history| == 0 ==> FullPrompt(history, content) == content
    ensures |history| > 0 ==>
      FullPrompt(history, content) == Transcript(history + [Message(User, content, [])])
  {
    TranscriptEmptyIffNoMessages(history);
    if |history| > 0 {
      var m := Message(User, content, []);
      var t := Transcript(history);
      assert Rendered(history + [m]) == Rendered(history) + [Render(m)];
      JoinSnoc(Rendered(history), Render(m), "\n\n");
      assert Transcript(history + [m]) == t + "\n\n" + Render(m);
      assert FullPrompt(history, content) == t + "\n\nUser: " + content;
    }
  }

  /** The assistant message built from a reply body: the suggested changes (or
      a default text) and three code blocks in a fixed order. */
  function AssistantMessage(cfg: Config): (m: Message)
    ensures m.role == Assistant
    ensures m.content == Or(cfg.suggestedChanges, DefaultReplyText)
    ensures |m.blocks| == 3
    ensures m.blocks[0].kind == SstConfig && m.blocks[0].code == cfg.sstConfig
    ensures m.blocks[1].kind == SuggestedChanges && m.blocks[1].code == cfg.suggestedChanges
    ensures m.blocks[2].kind == IamPolicy && m.blocks[2].code == cfg.iamPolicy
  {
    Message(Assistant, Or(cfg.suggestedChanges, DefaultReplyText), [
      Block(SstConfig, cfg.sstConfig, "typescript", "SST Config"),
      Block(SuggestedChanges, cfg.suggestedChanges, "markdown", "Implementation Guide"),
      Block(IamPolicy, cfg.iamPolicy, "json", "IAM Policy")])
  }

  /** The state after a send, and the prompt sent, if any. */
  datatype Sent = Sent(state: State, prompt: Option<string>)

  /** `handleSendMessage`. `reply` is what the function answers when called.
      A transport error or a `null` body (reading a field of it throws) adds
      no assistant message; an `error` field in the body is not looked at. */
  function HandleSendMessage(s: State, projects: seq<Dashboard.Project>, reply: Reply): (r: Sent)
    // A short input or an unknown project is refused and nothing changes.
    ensures r.prompt.None? <==>
      Utf16Length(Trim(s.input)) < MinPromptLength || Dashboard.Find(projects, s.selectedProject).None?
    ensures r.prompt.None? ==> r.state == s
    // Otherwise the input is cleared, the transcript so far is sent with the
    // trimmed input as the new turn, and the conversation gains that turn,
    // followed by the assistant's message exactly when a body came back.
    ensures r.prompt.Some? ==>
      && r.prompt.value == FullPrompt(s.messages, Trim(s.input))
      && r.state == s.(messages := r.state.messages, input := "", generating := false)
      && r.state.messages == s.messages + [Message(User, Trim(s.input), [])]
           + (if reply.Body? && reply.data.Some? then [AssistantMessage(reply.data.value)] else [])
  {
    var content := Trim(s.input);
    if Utf16Length(content) < MinPromptLength then Sent(s, None)
    else match Dashboard.Find(projects, s.selectedProject)
      case None => Sent(s, None)
      case Some(_) =>
        var asked := s.messages + [Message(User, content, [])];
        var messages :=
          if reply.Body? && reply.data.Some? then asked + [AssistantMessage(reply.data.value)] else asked;
        Sent(s.(messages := messages, input := "", generating := false), Some(FullPrompt(s.messages, content)))
  }

  /** The length check counts UTF-16 code units, as `.length` does: five
      characters outside the Basic Multilingual Plane count ten, so they are
      sent. */
  lemma WideCharactersCountTwice(s: State, projects: seq<Dashboard.Project>, reply: Reply)
    requires s.input == "\U{1F680}\U{1F680}\U{1F680}\U{1F680}\U{1F680}"
    requires Dashboard.Find(projects, s.selectedProject).Some?
    ensures |Trim(s.input)| == 5
    ensures HandleSendMessage(s, projects, reply).prompt.Some?
  {
    var w := s.input;
    assert !IsSpace(w[0]) && !IsSpace(w[4]);
    assert Trim(w) == w;
    assert Utf16Length(w[4..]) == 2;
    assert Utf16Length(w[3..]) == 4;
    assert Utf16Length(w[2..]) == 6;
    assert Utf16Length(w[1..]) == 8;
  }

  /** A conversation only grows: whatever a send does, the earlier messages stay
      as they were, and the new user turn is what the next prompt ends with. */
  lemma SendsExtendConversation(s: State, projects: seq<Dashboard.Project>, reply: Reply)
    requires Utf16Length(Trim(s.input)) >= MinPromptLength
    requires Dashboard.Find(projects, s.selectedProject).Some?
    ensures var t := HandleSendMessage(s, projects, reply).state;
      && s.messages <= t.messages
      && (|s.messages| > 0 ==>
            HandleSendMessage(s, projects, reply).prompt == Some(Transcript(t.messages[..|s.messages| + 1])))
  {
    var t := HandleSendMessage(s, projects, reply).state;
    assert t.messages[..|s.messages|] == s.messages by {
      assert t.messages[..|s.messages| + 1][..|s.messages|] == t.messages[..|s.messages|];
    }
    FullPromptIsTranscript(s.messages, Trim(s.input));
  }

  /** `handleNext`: from step 1 to step 2 once a repository is chosen. */
  function HandleNext(s: State): (r: State)
    ensures r.step == 2 <==> s.step == 2 || (s.step == 1 && s.selectedProject != "")
    ensures r == s.(step := r.step)
    ensures s.step != 1 ==> r == s
  {
    if s.step == 1 && s.selectedProject != "" then s.(step := 2) else s
  }

  /** Where the Back button leads. */
  datatype Back = Stay(state: State) | ToDashboard

  /** `handleBack`: one step back, or out to the dashboard from step 1. */
  function HandleBack(s: State): (r: Back)
    ensures r.ToDashboard? <==> s.step <= 1
    ensures r.Stay? ==> r.state == s.(step := s.step - 1) && r.state.step >= 1
  {
    if s.step > 1 then Stay(s.(step := s.step - 1)) else ToDashboard
  }

  /** Clicking a repository card chooses it and its branch. */
  function SelectProject(s: State, p: Dashboard.Project): (r: State)
    ensures r.selectedProject == p.id && r.selectedBranch == p.branchName
    ensures r.(selectedProject := s.selectedProject, selectedBranch := s.selectedBranch) == s
  {
    s.(selectedProject := p.id, selectedBranch := p.branchName)
  }

  /** Choosing a listed repository at step 1, moving on and sending a long
      enough input: the prompt is the conversation so far with the trimmed
      input as the new turn, the conversation grows by that turn, and the
      chat stays on the chosen repository and its branch at step 2. */
  lemma SendAfterChoosing(s: State, projects: seq<Dashboard.Project>, i: nat, reply: Reply)
    requires i < |projects| && s.step == 1
    requires Utf16Length(Trim(s.input)) >= MinPromptLength
    ensures var r := HandleSendMessage(HandleNext(SelectProject(s, projects[i])), projects, reply);
      && r.prompt == Some(FullPrompt(s.messages, Trim(s.input)))
      && r.state.selectedProject == projects[i].id
      && r.state.selectedBranch == projects[i].branchName
      && r.state.step == (if projects[i].id != "" then 2 else 1)
      && r.state.input == "" && !r.state.generating
      && s.messages + [Message(User, Trim(s.input), [])] <= r.state.messages
  {
    var t := HandleNext(SelectProject(s, projects[i]));
    assert Dashboard.Find(projects, t.selectedProject).Some?;
  }
}

=== FILE: setup_dialog.dfy ===
/** The three-step deployment dialog: choose a repository, describe the
    infrastructure (the description is sent to `generate-sst-config`), review
    and apply the generated configuration. Each handler is a function from the
    dialog's state (and, for the step that calls out, the reply) to the next
    state; notices shown to the user are not modelled. */
module SetupDialog {
  import opened Common
  import opened Text
  import opened ConfigReply

  datatype State = State(
    open: bool,               // the dialog's open flag, owned by its parent
    step: int,
    selectedProject: string,  // "" when none is chosen
    selectedBranch: string,
    prompt: string,
    loading: bool,
    response: Option<Config>)

  /** The state the dialog starts in. */
  function Initial(open: bool): State {
    State(open, 1, "", "", "", false, None)
  }

  /** The reply is taken as a configuration when the call succeeded and its
      body carries no truthy `error`; a `null` body is taken too. */
  predicate Accepted(reply: Reply) {
    reply.Body? && !(reply.data.Some? && Truthy(reply.data.value.error))
  }

  /** The state after a handler, and the prompt it sent, if any. */
  datatype Next = Next(state: State, sent: Option<string>)

  /** `handleNext`. `reply` is what the function call answers when one is made. */
  function HandleNext(s: State, reply: Reply): (r: Next)
    // The choice of repository, the branch and the prompt are never changed.
    ensures r.state.open == s.open && r.state.selectedProject == s.selectedProject
    ensures r.state.selectedBranch == s.selectedBranch && r.state.prompt == s.prompt
    // Step 1 moves on exactly when a repository is chosen.
    ensures s.step == 1 ==> r.sent == None
    ensures s.step == 1 ==> (r.state.step == 2 <==> s.selectedProject != "")
    ensures s.step == 1 && s.selectedProject == "" ==> r.state == s
    // The function is called exactly from step 2 with a non-blank prompt, and
    // then with the prompt as typed.
    ensures r.sent.Some? <==> s.step == 2 && Trim(s.prompt) != ""
    ensures r.sent.Some? ==> r.sent.value == s.prompt
    ensures s.step == 2 && r.sent.None? ==> r.state == s
    // After the call the dialog is not loading; it reaches step 3 exactly when
    // the reply is accepted, and keeps the reply only then.
    ensures r.sent.Some? ==>
      && !r.state.loading
      && (r.state.step == 3 <==> Accepted(reply))
      && (!Accepted(reply) ==> r.state.step == 2 && r.state.response == s.response)
      && (Accepted(reply) ==> r.state.response == reply.data)
  {
    if s.step == 1 && s.selectedProject == "" then Next(s, None)
    else if s.step == 2 && Trim(s.prompt) == "" then Next(s, None)
    else if s.step == 2 then
      if Accepted(reply) then Next(s.(response := reply.data, step := 3, loading := false), Some(s.prompt))
      else Next(s.(loading := false), Some(s.prompt))
    else Next(s.(step := s.step + 1), None)
  }

  /** `handleBack`: one step back, never before step 1; nothing else changes. */
  function HandleBack(s: State): (r: State)
    ensures r.step >= 1
    ensures s.step > 1 ==> r.step == s.step - 1
    ensures s.step <= 1 ==> r.step == 1
    ensures r == s.(step := r.step)
  {
    s.(step := if s.step - 1 > 1 then s.step - 1 else 1)
  }

  /** `handleApply`: the dialog closes and starts over at step 1 with no
      repository, prompt or configuration. The chosen branch is not reset. */
  function HandleApply(s: State): (r: State)
    ensures r == Initial(false).(selectedBranch := s.selectedBranch, loading := s.loading)
  {
    s.(open := false, step := 1, selectedProject := "", prompt := "", response := None)
  }

  /** What the user can do in the dialog. */
  datatype Action =
    | ClickNext(reply: Reply)
    | ClickBack
    | ClickApply
    | ChooseProject(id: string)
    | ChooseBranch(branch: string)
    | EditPrompt(text: string)
    | ClickTag(service: string)

  /** The actions the dialog offers in a state: Back is disabled on step 1 and
      while loading, Next is shown before step 3 and disabled while loading,
      Apply replaces it from step 3 on; the selectors belong to step 1 and the
      prompt and tags to step 2. */
  predicate Offered(s: State, a: Action) {
    match a
    case ClickNext(_) => s.step < 3 && !s.loading
    case ClickBack => !(s.step == 1 || s.loading)
    case ClickApply => !(s.step < 3)
    case ChooseProject(_) => s.step == 1
    case ChooseBranch(_) => s.step == 1
    case EditPrompt(_) => s.step == 2
    case ClickTag(_) => s.step == 2
  }

  function Perform(s: State, a: Action): State {
    match a
    case ClickNext(reply) => HandleNext(s, reply).state
    case ClickBack => HandleBack(s)
    case ClickApply => HandleApply(s)
    case ChooseProject(id) => s.(selectedProject := id)
    case ChooseBranch(b) => s.(selectedBranch := b)
    case EditPrompt(t) => s.(prompt := t)
    case ClickTag(service) => s.(prompt := AddServiceTag(s.prompt, service))
  }

  /** What holds between user actions: the step is 1, 2 or 3, nothing is
      loading, steps past 1 have a repository, and step 3 was reached with a
      non-blank prompt. */
  predicate Consistent(s: State) {
    && 1 <= s.step <= 3
    && !s.loading
    && (s.step >= 2 ==> s.selectedProject != "")
    && (s.step == 3 ==> Trim(s.prompt) != "")
  }

  /** The dialog starts consistent, and every offered action keeps it so. */
  lemma ActionsKeepConsistent(s: State, a: Action)
    requires Consistent(s) && Offered(s, a)
    ensures Consistent(Perform(s, a))
    ensures Consistent(Initial(s.open))
  {
  }

  /** The step-3 view is only reached through an accepted reply to the prompt
      now shown. */
  lemma ReachingReviewNeedsAcceptedReply(s: State, reply: Reply)
    requires Consistent(s) && s.step < 3
    requires HandleNext(s, reply).state.step == 3
    ensures s.step == 2 && Accepted(reply) && HandleNext(s, reply).sent == Some(s.prompt)
  {
  }
}

=== FILE: text.dfy ===
/** The string operations the source borrows from JavaScript and the shell:
    `indexOf`, `replace` with a string pattern, `split`, `join`, `trim`,
    `toLowerCase`, and the shell's splitting of a command line into words. */
module Text {
  import opened Common

  /** `pat` occurs in `s` starting at index `i`. */
  predicate OccursAt(s: string, pat: string, i: nat) {
    i + |pat| <= |s| && s[i..i + |pat|] == pat
  }

  /** The index of the first occurrence of `pat` in `s` (`s.indexOf(pat)`). */
  function IndexOf(s: string, pat: string): (r: Option<nat>)
    ensures r.Some? ==> OccursAt(s, pat, r.value)
    ensures r.Some? ==> forall j :: 0 <= j < r.value ==> !OccursAt(s, pat, j)
    ensures r.None? <==> forall j :: 0 <= j <= |s| ==> !OccursAt(s, pat, j)
  {
    IndexFrom(s, pat, 0)
  }

  function IndexFrom(s: string, pat: string, k: nat): (r: Option<nat>)
    ensures r.Some? ==> k <= r.value && OccursAt(s, pat, r.value)
    ensures r.Some? ==> forall j :: k <= j < r.value ==> !OccursAt(s, pat, j)
    ensures r.None? <==> forall j :: k <= j <= |s| ==> !OccursAt(s, pat, j)
    decreases |s| + 1 - k
  {
    if k + |pat| > |s| then None
    else if s[k..k + |pat|] == pat then
      assert OccursAt(s, pat, k);
      Some(k)
    else IndexFrom(s, pat, k + 1)
  }

  /** `s.includes(pat)`. */
  predicate Contains(s: string, pat: string) {
    IndexOf(s, pat).Some?
  }

  /** `s.replace(pat, rep)` with a string pattern: only the first occurrence
      is replaced. */
  function ReplaceFirst(s: string, pat: string, rep: string): (r: string)
    ensures IndexOf(s, pat).None? ==> r == s
    ensures IndexOf(s, pat).Some? ==>
      var i := IndexOf(s, pat).value;
      |r| == |s| - |pat| + |rep| && r[..i] == s[..i] && OccursAt(r, rep, i) && r[i + |rep|..] == s[i + |pat|..]
  {
    match IndexOf(s, pat)
    case None => s
    case Some(i) => s[..i] + rep + s[i + |pat|..]
  }

  /** A string that begins with `pat` has its first occurrence at index 0,
      so replacing replaces that prefix. */
  lemma ReplaceLeading(pat: string, t: string, rep: string)
    ensures ReplaceFirst(pat + t, pat, rep) == rep + t
  {
    assert OccursAt(pat + t, pat, 0) by {
      assert (pat + t)[0..|pat|] == pat;
    }
    assert (pat + t)[|pat|..] == t;
  }

  /** ASCII lower-casing of one character. */
  function LowerChar(c: char): (r: char)
    ensures 'A' <= c <= 'Z' ==> 'a' <= r <= 'z'
    ensures !('A' <= c <= 'Z') ==> r == c
  {
    if 'A' <= c <= 'Z' then (c as int + 32) as char else c
  }

  /** `s.toLowerCase()` restricted to ASCII letters. */
  function ToLower(s: string): (r: string)
    ensures |r| == |s|
    ensures forall i :: 0 <= i < |s| ==> r[i] == LowerChar(s[i])
  {
    seq(|s|, i requires 0 <= i < |s| => LowerChar(s[i]))
  }

  /** What `s.split(sep).pop()` yields: the part of `s` after its last `sep`,
      or all of `s` when it holds no `sep`. */
  function LastSegment(s: string, sep: char): (r: string)
    ensures |r| <= |s| && r == s[|s| - |r|..]
    ensures sep !in r
    ensures |r| < |s| ==> s[|s| - |r| - 1] == sep
  {
    if |s| == 0 then ""
    else if s[|s| - 1] == sep then ""
    else
      var front := s[..|s| - 1];
      var init := LastSegment(front, sep);
      assert init == front[|front| - |init|..];
      assert front[|front| - |init|..] + [s[|s| - 1]] == s[|s| - |init| - 1..];
      assert |init| < |front| ==> s[|s| - |init| - 2] == front[|front| - |init| - 1];
      init + [s[|s| - 1]]
  }

  /** The characters JavaScript's `trim` removes: white space and line terminators. */
  predicate IsSpace(c: char) {
    c == ' ' || c == '\t' || c == '\n' || c == '\r' || c == '\U{0B}' || c == '\U{0C}'
    || c == '\U{A0}' || c == '\U{FEFF}' || c == '\U{1680}' || ('\U{2000}' <= c <= '\U{200A}')
    || c == '\U{2028}' || c == '\U{2029}' || c == '\U{202F}' || c == '\U{205F}' || c == '\U{3000}'
  }

  /** `s` with its leading white space removed. */
  function TrimStart(s: string): (r: string)
    ensures |r| <= |s| && r == s[|s| - |r|..]
    ensures forall i :: 0 <= i < |s| - |r| ==> IsSpace(s[i])
    ensures |r| > 0 ==> !IsSpace(r[0])
  {
    if |s| > 0 && IsSpace(s[0]) then TrimStart(s[1..]) else s
  }

  /** `s` with its trailing white space removed. */
  function TrimEnd(s: string): (r: string)
    ensures |r| <= |s| && r == s[..|r|]
    ensures forall i :: |r| <= i < |s| ==> IsSpace(s[i])
    ensures |r| > 0 ==> !IsSpace(r[|r| - 1])
  {
    if |s| > 0 && IsSpace(s[|s| - 1]) then TrimEnd(s[..|s| - 1]) else s
  }

  /** JavaScript's `s.length`: the number of UTF-16 code units, one for a
      character of the Basic Multilingual Plane and two for any other. */
  function Utf16Length(s: string): (n: nat)
    ensures |s| <= n <= 2 * |s|
    ensures n == |s| <==> forall i :: 0 <= i < |s| ==> s[i] as int <= 0xFFFF
  {
    if |s| == 0 then 0
    else (if s[0] as int <= 0xFFFF then 1 else 2) + Utf16Length(s[1..])
  }

  /** `s.trim()`. */
  function Trim(s: string): string {
    TrimEnd(TrimStart(s))
  }

  /** A trimmed string is empty exactly when the original held only white space. */
  lemma TrimEmptyIffBlank(s: string)
    ensures Trim(s) == "" <==> forall i :: 0 <= i < |s| ==> IsSpace(s[i])
  {
    var t := TrimStart(s);
    if Trim(s) == "" {
      assert |t| == 0;
    } else {
      assert |t| > 0 && Trim(s)[0] == t[0];
      assert t[0] == s[|s| - |t|];
    }
  }

  /** `xs.join(sep)`. */
  function Join(xs: seq<string>, sep: string): string {
    if |xs| == 0 then ""
    else if |xs| == 1 then xs[0]
    else xs[0] + sep + Join(xs[1..], sep)
  }

  /** Appending one more piece to a non-empty join adds one separator and the piece. */
  lemma {:induction false} JoinSnoc(xs: seq<string>, x: string, sep: string)
    requires |xs| > 0
    ensures Join(xs + [x], sep) == Join(xs, sep) + sep + x
  {
    if |xs| == 1 {
      assert xs + [x] == [xs[0], x];
    } else {
      assert (xs + [x])[1..] == xs[1..] + [x];
      JoinSnoc(xs[1..], x, sep);
    }
  }

  /** A join of non-empty pieces is empty exactly when there are no pieces. */
  lemma {:induction false} JoinEmptyIffNoPieces(xs: seq<string>, sep: string)
    requires forall i :: 0 <= i < |xs| ==> xs[i] != ""
    ensures Join(xs, sep) == "" <==> |xs| == 0
  {
    if |xs| >= 1 {
      assert |Join(xs, sep)| >= |xs[0]|;
    }
  }

  /** `s.split(c)` for a one-character separator: the pieces between
      separators, empty pieces included, always at least one piece. */
  function Split(s: string, c: char): (r: seq<string>)
    ensures |r| >= 1
  {
    if |s| == 0 then [""]
    else
      var rest := Split(s[1..], c);
      if s[0] == c then [""] + rest
      else [[s[0]] + rest[0]] + rest[1..]
  }

  /** A piece free of the separator is read back whole, followed by the pieces of the rest. */
  lemma {:induction false} SplitPiece(x: string, t: string, c: char)
    requires c !in x
    ensures Split(x + t, c) == [x + Split(t, c)[0]] + Split(t, c)[1..]
    decreases |x|
  {
    if |x| > 0 {
      assert (x + t)[1..] == x[1..] + t;
      SplitPiece(x[1..], t, c);
      assert [x[0]] + (x[1..] + Split(t, c)[0]) == x + Split(t, c)[0];
    } else {
      assert x + t == t;
      var p := Split(t, c);
      assert x + p[0] == p[0];
      assert p == [p[0]] + p[1..];
    }
  }

  /** Splitting a join on the same one-character separator gives the pieces
      back, provided no piece contains the separator. */
  lemma {:induction false} SplitJoin(xs: seq<string>, c: char)
    requires |xs| >= 1
    requires forall i :: 0 <= i < |xs| ==> c !in xs[i]
    ensures Split(Join(xs, [c]), c) == xs
  {
    if |xs| == 1 {
      SplitPiece(xs[0], "", c);
      assert xs[0] + "" == xs[0];
    } else {
      var t := [c] + Join(xs[1..], [c]);
      assert Join(xs, [c]) == xs[0] + t;
      SplitPiece(xs[0], t, c);
      SplitJoin(xs[1..], c);
      assert t[1..] == Join(xs[1..], [c]);
      assert Split(t, c) == [""] + xs[1..];
      assert xs[0] + "" == xs[0];
    }
  }

  /** The space-separated words of a command line. A shell also splits at
      tabs and newlines and gives quotes and other metacharacters a meaning;
      this split does neither. */
  function Words(line: string): seq<string> {
    Split(line, ' ')
  }
}

=== FILE: worker.dfy ===
/** The deployment worker: one poll cycle picks the oldest eligible job,
    claims it, and runs the clone / install / sst pipeline inside a temporary
    directory, reporting `completed` or `failed` back to the job store.

    Two workers share this shape. `Current` is flyio-worker/src/index.ts: it
    polls the `deployments` table for `pending` and `toBeRemoved` jobs and can
    tear a stage down. `Legacy` is the older compiled flyio-worker/src/source.js:
    it polls `deployment_jobs` for `pending` jobs only and always deploys.

    Everything outside the process is an oracle in `Env`: whether the job
    fetch succeeds, the temporary directory `mkdtempSync` makes, the outcome of
    each shell command, whether `rmSync` succeeds, and whether each status
    write reaches the store. */
module Worker {
  import opened Common
  import opened Text
  import opened Jobs

  datatype Variant = Current | Legacy

  /** The table a worker polls and updates. */
  function Table(v: Variant): string {
    match v
    case Current => "deployments"
    case Legacy => "deployment_jobs"
  }

  /** The statuses a poll picks up: `pending`, and for the current worker also `toBeRemoved`. */
  predicate Eligible(v: Variant, s: Status) {
    s == Pending || (v == Current && s == ToBeRemoved)
  }

  /** The run tears the stage down rather than deploying it. */
  predicate IsRemoval(v: Variant, job: Row) {
    v == Current && job.status == ToBeRemoved
  }

  const DefaultBranch := "main"
  const DefaultStage := "production"
  const DefaultRegion := "us-east-1"

  /** How a template literal prints a property: an absent one prints as `undefined`. */
  function Interpolate(x: Option<string>): string {
    if x.Some? then x.value else "undefined"
  }

  /** One child process: its command line, its working directory (absent means
      the worker's own) and the `AWS_REGION` placed in its environment. */
  datatype Invocation = Invocation(line: string, cwd: Option<string>, region: string)

  /** What `execSync` does with one command: exit status 0 with its standard
      output, or a non-zero exit carrying the captured standard error and the
      error's own message. */
  datatype CmdOutcome = Exit0(stdout: string) | NonZero(stderr: string, message: string)

  /** How a piece of the worker ends: it returns a value or throws an `Error`. */
  datatype Completion = Returned(output: string) | Threw(message: string)

  /** `executeCommand`: a zero exit returns the output; a non-zero exit throws
      an error whose message is the standard error when that is non-empty, and
      the underlying error's message otherwise. */
  function ExecuteCommand(o: CmdOutcome): (r: Completion)
    ensures r.Returned? <==> o.Exit0?
    ensures o.Exit0? ==> r.output == o.stdout
    ensures o.NonZero? ==> r.message == (if o.stderr != "" then o.stderr else o.message)
  {
    match o
    case Exit0(out) => Returned(out)
    case NonZero(stderr, message) => Threw(Or(Some(stderr), message))
  }

  datatype Env = Env(
    awsRegion: Option<string>,
    fetchOk: bool,
    tempDir: TempDir,
    run: Invocation -> CmdOutcome,
    removeOk: bool,
    writeOk: Status -> bool)

  /** The region every child process sees: the worker's own `AWS_REGION`, or `us-east-1`. */
  function Region(env: Env): (r: string)
    ensures Truthy(env.awsRegion) ==> r == env.awsRegion.value
    ensures !Truthy(env.awsRegion) ==> r == DefaultRegion
  {
    Or(env.awsRegion, DefaultRegion)
  }

  /** The pipeline's steps in their fixed order. */
  datatype Step = Clone | Install | Probe | Fallback | Final

  datatype Command = Command(step: Step, inv: Invocation)

  /** A command together with how it ended. */
  datatype Ran = Ran(cmd: Command, result: Completion)

  /** The clone command: a shallow clone of the job's branch (`main` when it
      has none) from its `github_url`, into the directory, which ends the line. */
  function CloneLine(job: Row, dir: string): (line: string)
    ensures var prefix := "git clone --depth 1 --branch ";
      var b := Or(job.branch, DefaultBranch);
      && |line| == |prefix| + |b| + 1 + |Interpolate(job.githubUrl)| + 1 + |dir|
      && line[..|prefix|] == prefix
      && line[|prefix|..|prefix| + |b|] == b
      && line[|line| - |dir|..] == dir
  {
    "git clone --depth 1 --branch " + Or(job.branch, DefaultBranch) + " " + Interpolate(job.githubUrl) + " " + dir
  }

  const InstallLine := "npm install"
  const ProbeLine := "npx sst version"
  const FallbackLine := "npm install -g sst"

  /** The sst sub-command: `remove` for a removal, `deploy` otherwise. */
  function Action(v: Variant, job: Row): (a: string)
    ensures a == "remove" <==> IsRemoval(v, job)
    ensures a == "deploy" <==> !IsRemoval(v, job)
  {
    if IsRemoval(v, job) then "remove" else "deploy"
  }

  /** The sst command: the action for this job, then its stage (`production`
      when it has none), which ends the line. */
  function FinalLine(v: Variant, job: Row): (line: string)
    ensures var stage := Or(job.stage, DefaultStage);
      && |line| == 8 + 6 + 9 + |stage|
      && line[..8] == "npx sst " && line[8..14] == Action(v, job) && line[14..23] == " --stage "
      && line[|line| - |stage|..] == stage
  {
    "npx sst " + Action(v, job) + " --stage " + Or(job.stage, DefaultStage)
  }

  function Cmd(step: Step, line: string, cwd: Option<string>, env: Env): Command {
    Command(step, Invocation(line, cwd, Region(env)))
  }

  /** The commands of a run with no terminal failure, in order: the clone (in
      the worker's own directory), then in the checkout the install, the sst
      probe, the global sst install only when the probe failed, and finally
      `sst deploy` or `sst remove`. */
  function Commands(v: Variant, job: Row, dir: string, env: Env, probeFailed: bool): seq<Command> {
    [Cmd(Clone, CloneLine(job, dir), None, env),
     Cmd(Install, InstallLine, Some(dir), env),
     Cmd(Probe, ProbeLine, Some(dir), env)]
    + (if probeFailed then [Cmd(Fallback, FallbackLine, Some(dir), env)] else [])
    + [Cmd(Final, FinalLine(v, job), Some(dir), env)]
  }

  function Execute(c: Command, env: Env): Ran {
    Ran(c, ExecuteCommand(env.run(c.inv)))
  }

  /** The sst probe fails in this environment. */
  predicate ProbeFails(dir: string, env: Env) {
    Execute(Cmd(Probe, ProbeLine, Some(dir), env), env).result.Threw?
  }

  /** The body of the `try` block once the directory exists: the commands that
      actually run and how each ended. The run is a prefix of `Commands`; every
      command but the last succeeded or was the probe; the probe is never last;
      and the run stops short of the plan only because its last command failed. */
  function RunSteps(v: Variant, job: Row, dir: string, env: Env): (r: seq<Ran>)
    ensures var plan := Commands(v, job, dir, env, ProbeFails(dir, env));
      |r| <= |plan| && forall i :: 0 <= i < |r| ==> r[i].cmd == plan[i]
    ensures |r| >= 1
    ensures forall i :: 0 <= i < |r| ==> r[i] == Execute(r[i].cmd, env)
    ensures forall i :: 0 <= i < |r| - 1 ==> r[i].result.Returned? || r[i].cmd.step == Probe
    ensures r[|r| - 1].cmd.step != Probe
    ensures |r| < |Commands(v, job, dir, env, ProbeFails(dir, env))| ==> r[|r| - 1].result.Threw?
  {
    var plan := Commands(v, job, dir, env, ProbeFails(dir, env));
    var clone := Execute(plan[0], env);
    if clone.result.Threw? then [clone]
    else
      var install := Execute(plan[1], env);
      if install.result.Threw? then [clone, install]
      else
        var probe := Execute(plan[2], env);
        var boot := if probe.result.Threw? then [probe, Execute(plan[3], env)] else [probe];
        if boot[|boot| - 1].result.Threw? then [clone, install] + boot
        else [clone, install] + boot + [Execute(plan[|plan| - 1], env)]
  }

  /** What the pipeline leaves behind. */
  datatype Event =
    | MakeDir(dir: string)
    | Exec(ran: Ran)
    | Write(id: string, status: Status, err: Option<string>)
    | RemoveDir(dir: string)

  datatype Outcome = Outcome(events: seq<Event>, rows: seq<Row>, workspace: set<string>, result: Completion)

  /** `updateJobStatus`: the update reaches the store or fails; a failure is
      only logged, so the rows are then unchanged and nothing is thrown. */
  function Report(rows: seq<Row>, id: string, status: Status, err: Option<string>, env: Env): seq<Row> {
    if env.writeOk(status) then UpdateStatus(rows, id, status, err) else rows
  }

  function Execs(ran: seq<Ran>): (r: seq<Event>)
    ensures |r| == |ran| && forall i :: 0 <= i < |ran| ==> r[i] == Exec(ran[i])
  {
    seq(|ran|, i requires 0 <= i < |ran| => Exec(ran[i]))
  }

  /** The terminal write for a run's result: `completed` with no message, or
      `failed` with the thrown message. */
  function Verdict(id: string, result: Completion): (w: Event)
    ensures w.Write? && w.id == id
    ensures w.status == Completed <==> result.Returned?
    ensures w.status == Failed <==> result.Threw?
    ensures result.Returned? ==> w.err == None
    ensures result.Threw? ==> w.err == Some(result.message)
  {
    match result
    case Returned(_) => Write(id, Completed, None)
    case Threw(m) => Write(id, Failed, Some(m))
  }

  /** `processRepository` (`deployRepository` in the legacy worker). */
  function ProcessRepository(v: Variant, job: Row, rows: seq<Row>, ws: set<string>, env: Env): (o: Outcome)
    // The result is reported as the final write, before the directory is removed.
    ensures |o.events| >= (if env.tempDir.Made? then 4 else 1)
    ensures o.events[|o.events| - 1 - (if env.tempDir.Made? then 1 else 0)] == Verdict(job.id, o.result)
    ensures var w := Verdict(job.id, o.result); o.rows == Report(rows, job.id, w.status, w.err, env)
    // A temporary directory that was made is removed on every path, as the last thing done.
    ensures env.tempDir.Made? ==>
      o.events[0] == MakeDir(env.tempDir.dir) && o.events[|o.events| - 1] == RemoveDir(env.tempDir.dir)
    ensures env.tempDir.Made? && env.removeOk ==> o.workspace == ws - {env.tempDir.dir}
    ensures env.tempDir.Made? && !env.removeOk ==> o.workspace == ws + {env.tempDir.dir}
    // Without a directory nothing runs and the failure is the directory's.
    ensures env.tempDir.NotMade? ==>
      o.workspace == ws && |o.events| == 1 && o.result == Threw(env.tempDir.message)
    // With one, the commands run between making and removing it are the run,
    // and the result is how the run's last command ended.
    ensures env.tempDir.Made? ==>
      var ran := RunSteps(v, job, env.tempDir.dir, env);
      && o.events[1..|o.events| - 2] == Execs(ran)
      && o.result == ran[|ran| - 1].result
  {
    match env.tempDir
    case NotMade(m) =>
      var w := Verdict(job.id, Threw(m));
      Outcome([w], Report(rows, job.id, Failed, Some(m), env), ws, Threw(m))
    case Made(d) =>
      var ran := RunSteps(v, job, d, env);
      var result := ran[|ran| - 1].result;
      var w := Verdict(job.id, result);
      Outcome([MakeDir(d)] + Execs(ran) + [w, RemoveDir(d)],
              Report(rows, job.id, w.status, w.err, env),
              if env.removeOk then ws - {d} else ws + {d},
              result)
  }

  /** The index of the job a poll picks: the oldest eligible row by
      `created_at`, the first stored among equally old ones. */
  function Oldest(v: Variant, rows: seq<Row>): (r: Option<nat>)
    ensures r.None? <==> forall k :: 0 <= k < |rows| ==> !Eligible(v, rows[k].status)
    ensures r.Some? ==> r.value < |rows| && Eligible(v, rows[r.value].status)
    ensures r.Some? ==>
      forall k :: 0 <= k < |rows| && Eligible(v, rows[k].status) ==> rows[r.value].createdAt <= rows[k].createdAt
    ensures r.Some? ==>
      forall k :: 0 <= k < r.value && Eligible(v, rows[k].status) ==> rows[r.value].createdAt < rows[k].createdAt
  {
    FirstMin(rows, (r: Row) => Eligible(v, r.status), (r: Row) => r.createdAt)
  }

  /** One poll cycle, with the pipeline's own error swallowed: `handled` is
      what the pipeline ended with, when a job was picked. */
  datatype Cycle = Cycle(events: seq<Event>, db: Db, workspace: set<string>, handled: Option<Completion>)

  /** `pollForJobs`. */
  function PollForJobs(v: Variant, db: Db, ws: set<string>, env: Env): (c: Cycle)
    // No eligible job, or a failed fetch: nothing is written, run or made.
    ensures !env.fetchOk || Oldest(v, TableRows(db, Table(v))).None? ==>
      c.events == [] && c.db == db && c.workspace == ws && c.handled == None
    // Otherwise the oldest eligible job is claimed before anything else happens.
    ensures env.fetchOk && Oldest(v, TableRows(db, Table(v))).Some? ==>
      var rows := TableRows(db, Table(v));
      var job := rows[Oldest(v, rows).value];
      && Eligible(v, job.status)
      && (forall k :: 0 <= k < |rows| && Eligible(v, rows[k].status) ==> job.createdAt <= rows[k].createdAt)
      && |c.events| >= 1 && c.events[0] == Write(job.id, Processing, None)
      && c.handled.Some?
    // The pipeline then runs on the row as it was read, not as claimed, so a
    // `toBeRemoved` job is still torn down; its events, rows, workspace and
    // result are the cycle's.
    ensures env.fetchOk && Oldest(v, TableRows(db, Table(v))).Some? ==>
      var rows := TableRows(db, Table(v));
      var job := rows[Oldest(v, rows).value];
      var o := ProcessRepository(v, job, Report(rows, job.id, Processing, None, env), ws, env);
      && c.events == [Write(job.id, Processing, None)] + o.events
      && c.db == db[Table(v) := o.rows]
      && c.workspace == o.workspace
      && c.handled == Some(o.result)
    // Only the worker's own table is touched.
    ensures forall t :: t in db && t != Table(v) ==> t in c.db && c.db[t] == db[t]
  {
    var rows := TableRows(db, Table(v));
    if !env.fetchOk then Cycle([], db, ws, None)
    else match Oldest(v, rows)
      case None => Cycle([], db, ws, None)
      case Some(i) =>
        var job := rows[i];
        var claimed := Report(rows, job.id, Processing, None, env);
        var o := ProcessRepository(v, job, claimed, ws, env);
        Cycle([Write(job.id, Processing, None)] + o.events, db[Table(v) := o.rows], o.workspace, Some(o.result))
  }

  /** The polling timer: whether a handle was ever assigned (what `/health`
      reports) and whether the interval still fires. */
  datatype Scheduler = Scheduler(timerSet: bool, ticking: bool)

  /** The timer before `startPolling`: no handle, nothing firing. */
  const Idle := Scheduler(false, false)

  /** `startPolling`: arms the timer and runs one cycle at once. */
  function StartPolling(v: Variant, db: Db, ws: set<string>, env: Env): (Scheduler, Cycle) {
    (Scheduler(true, true), PollForJobs(v, db, ws, env))
  }

  /** `stopPolling`: clears the interval if one was set. The handle variable is
      not reset, so the health flag keeps reading true. */
  function StopPolling(s: Scheduler): (r: Scheduler)
    ensures !r.ticking || !s.timerSet
    ensures r.timerSet == s.timerSet
  {
    if s.timerSet then s.(ticking := false) else s
  }

  /** One firing of the interval: a poll cycle while the timer ticks, nothing otherwise. */
  function Tick(s: Scheduler, v: Variant, db: Db, ws: set<string>, env: Env): Cycle {
    if s.ticking then PollForJobs(v, db, ws, env) else Cycle([], db, ws, None)
  }
}

=== FILE: worker_facts.dfy ===
/** Properties of the deployment worker that relate several of its parts: the
    fallback install, where a run stops, the status writes of a cycle, the
    independence of the result from cleanup and store failures, and the shape
    of the clone command. */
module WorkerFacts {
  import opened Common
  import opened Text
  import opened Jobs
  import opened Worker
  import RepoContents

  /** The fallback `npm install -g sst` runs exactly when the probe ran and
      failed, and then only once, right after the probe. */
  lemma FallbackIffProbeFailed(v: Variant, job: Row, dir: string, env: Env)
    ensures var r := RunSteps(v, job, dir, env);
      (exists i :: 0 <= i < |r| && r[i].cmd.step == Fallback) <==> (|r| >= 3 && ProbeFails(dir, env))
    ensures var r := RunSteps(v, job, dir, env);
      forall i :: 0 <= i < |r| && r[i].cmd.step == Fallback ==> i == 3 && r[2].cmd.step == Probe
  {
    var r := RunSteps(v, job, dir, env);
    var plan := Commands(v, job, dir, env, ProbeFails(dir, env));
    assert forall i :: 0 <= i < |plan| && plan[i].step == Fallback ==> i == 3;
    if |r| >= 3 && ProbeFails(dir, env) {
      assert r[2].cmd.step == Probe;
      assert |r| >= 4 && r[3].cmd.step == Fallback;
    }
  }

  /** The probe's failure is never terminal: a run that failed did so at the
      clone, the install, the fallback install or the sst command, and no
      command ran after it. */
  lemma FailureStopsTheRun(v: Variant, job: Row, dir: string, env: Env, i: nat)
    requires i < |RunSteps(v, job, dir, env)|
    requires RunSteps(v, job, dir, env)[i].result.Threw?
    requires RunSteps(v, job, dir, env)[i].cmd.step != Probe
    ensures i == |RunSteps(v, job, dir, env)| - 1
  {
  }

  /** A run ends well exactly when every planned command ran and the last, the
      sst command, returned. */
  lemma SuccessRunsThePlan(v: Variant, job: Row, dir: string, env: Env)
    ensures var r := RunSteps(v, job, dir, env);
      r[|r| - 1].result.Returned? <==>
        && |r| == |Commands(v, job, dir, env, ProbeFails(dir, env))|
        && r[|r| - 1].cmd.step == Final
        && r[|r| - 1].result.Returned?
  {
    var r := RunSteps(v, job, dir, env);
    var plan := Commands(v, job, dir, env, ProbeFails(dir, env));
    assert plan[|plan| - 1].step == Final;
  }

  /** The first command of every run is the clone, run in the worker's own directory. */
  lemma FirstCommandIsClone(v: Variant, job: Row, dir: string, env: Env)
    ensures RunSteps(v, job, dir, env)[0] == Execute(Cmd(Clone, CloneLine(job, dir), None, env), env)
  {
    var plan := Commands(v, job, dir, env, ProbeFails(dir, env));
    assert plan[0] == Cmd(Clone, CloneLine(job, dir), None, env);
  }

  /** A run depends on the environment only through the command outcomes and
      the region. */
  lemma RunStepsDependOnRunAndRegion(v: Variant, job: Row, dir: string, env: Env, env': Env)
    requires env'.run == env.run && Region(env') == Region(env)
    ensures RunSteps(v, job, dir, env') == RunSteps(v, job, dir, env)
  {
    assert forall s, c, cwd :: Cmd(s, c, cwd, env') == Cmd(s, c, cwd, env);
    assert ProbeFails(dir, env') == ProbeFails(dir, env);
    assert Commands(v, job, dir, env', ProbeFails(dir, env)) == Commands(v, job, dir, env, ProbeFails(dir, env));
  }

  /** Removing the directory and writing to the store never change what the
      pipeline runs or returns: their failures are only logged. */
  lemma ResultIgnoresCleanupAndWrites(v: Variant, job: Row, rows: seq<Row>, ws: set<string>,
                                      env: Env, removeOk: bool, writeOk: Status -> bool)
    ensures var env' := env.(removeOk := removeOk, writeOk := writeOk);
      && ProcessRepository(v, job, rows, ws, env').result == ProcessRepository(v, job, rows, ws, env).result
      && ProcessRepository(v, job, rows, ws, env').events == ProcessRepository(v, job, rows, ws, env).events
  {
    var env' := env.(removeOk := removeOk, writeOk := writeOk);
    if env.tempDir.Made? {
      RunStepsDependOnRunAndRegion(v, job, env.tempDir.dir, env, env');
    }
  }

  /** The verdict written is decided by the commands that ran: `completed`
      exactly when no command other than the probe failed, and otherwise
      `failed` with the message of the failing command, which is the last one
      run and is never the probe. */
  lemma VerdictFollowsCommands(v: Variant, job: Row, rows: seq<Row>, ws: set<string>, env: Env)
    requires env.tempDir.Made?
    ensures var o := ProcessRepository(v, job, rows, ws, env);
      var ran := RunSteps(v, job, env.tempDir.dir, env);
      o.result.Returned? <==> forall i :: 0 <= i < |ran| && ran[i].cmd.step != Probe ==> ran[i].result.Returned?
    ensures var o := ProcessRepository(v, job, rows, ws, env);
      var ran := RunSteps(v, job, env.tempDir.dir, env);
      var last := ran[|ran| - 1].cmd;
      o.result.Threw? ==>
        && last.step != Probe
        && o.result == ExecuteCommand(env.run(last.inv))
        && Verdict(job.id, o.result) == Write(job.id, Failed, Some(ExecuteCommand(env.run(last.inv)).message))
  {
  }

  /** The status writes among a cycle's events. */
  function WritesOf(es: seq<Event>): (ws: seq<Event>)
    ensures |ws| <= |es|
    ensures forall i :: 0 <= i < |ws| ==> ws[i].Write?
  {
    if |es| == 0 then []
    else (if es[0].Write? then [es[0]] else []) + WritesOf(es[1..])
  }

  lemma {:induction false} WritesOfAppend(a: seq<Event>, b: seq<Event>)
    ensures WritesOf(a + b) == WritesOf(a) + WritesOf(b)
    decreases |a|
  {
    if |a| > 0 {
      assert (a + b)[1..] == a[1..] + b;
      WritesOfAppend(a[1..], b);
    } else {
      assert a + b == b;
    }
  }

  lemma {:induction false} NoWritesInExecs(ran: seq<Ran>)
    ensures WritesOf(Execs(ran)) == []
    decreases |ran|
  {
    if |ran| > 0 {
      assert Execs(ran)[1..] == Execs(ran[1..]);
      NoWritesInExecs(ran[1..]);
    }
  }

  /** The pipeline writes one status, the verdict on its own result. */
  lemma PipelineWritesVerdict(v: Variant, job: Row, rows: seq<Row>, ws: set<string>, env: Env)
    ensures var o := ProcessRepository(v, job, rows, ws, env);
      WritesOf(o.events) == [Verdict(job.id, o.result)]
  {
    var o := ProcessRepository(v, job, rows, ws, env);
    var w := Verdict(job.id, o.result);
    if env.tempDir.Made? {
      var d := env.tempDir.dir;
      var ran := RunSteps(v, job, d, env);
      assert o.events == ([MakeDir(d)] + Execs(ran)) + [w, RemoveDir(d)];
      WritesOfAppend([MakeDir(d)] + Execs(ran), [w, RemoveDir(d)]);
      WritesOfAppend([MakeDir(d)], Execs(ran));
      NoWritesInExecs(ran);
      assert WritesOf([w, RemoveDir(d)]) == [w] by {
        assert [w, RemoveDir(d)][1..] == [RemoveDir(d)];
      }
    }
  }

  /** A cycle that picks a job writes its status exactly twice: `processing`
      first, then the verdict on the pipeline's result. */
  lemma CycleWritesClaimThenVerdict(v: Variant, db: Db, ws: set<string>, env: Env)
    requires env.fetchOk && Oldest(v, TableRows(db, Table(v))).Some?
    ensures var rows := TableRows(db, Table(v));
      var job := rows[Oldest(v, rows).value];
      var c := PollForJobs(v, db, ws, env);
      c.handled.Some? &&
      WritesOf(c.events) == [Write(job.id, Processing, None), Verdict(job.id, c.handled.value)]
  {
    var rows := TableRows(db, Table(v));
    var job := rows[Oldest(v, rows).value];
    var claimed := Report(rows, job.id, Processing, None, env);
    var o := ProcessRepository(v, job, claimed, ws, env);
    var claim := Write(job.id, Processing, None);
    assert PollForJobs(v, db, ws, env).events == [claim] + o.events;
    PipelineWritesVerdict(v, job, claimed, ws, env);
    WritesOfAppend([claim], o.events);
  }

  /** A cycle acts on the row as it was read: when the picked job succeeds,
      the last command of the cycle is that row's sst command, which is
      `remove` exactly for a current-worker `toBeRemoved` row. Its directory is
      gone afterwards whenever removal works. */
  lemma CycleRunsPickedRow(v: Variant, db: Db, ws: set<string>, env: Env)
    requires env.fetchOk && Oldest(v, TableRows(db, Table(v))).Some? && env.tempDir.Made?
    ensures var rows := TableRows(db, Table(v));
      var job := rows[Oldest(v, rows).value];
      var c := PollForJobs(v, db, ws, env);
      var d := env.tempDir.dir;
      && (c.handled.Some? && c.handled.value.Returned? ==>
            && |c.events| >= 4
            && c.events[|c.events| - 3] == Exec(Execute(Cmd(Final, FinalLine(v, job), Some(d), env), env))
            && (Action(v, job) == "remove" <==> v == Current && job.status == ToBeRemoved))
      && (env.removeOk ==> c.workspace == ws - {d})
  {
    var rows := TableRows(db, Table(v));
    var job := rows[Oldest(v, rows).value];
    var d := env.tempDir.dir;
    var o := ProcessRepository(v, job, Report(rows, job.id, Processing, None, env), ws, env);
    var ran := RunSteps(v, job, d, env);
    if o.result.Returned? {
      SuccessRunsThePlan(v, job, d, env);
      var plan := Commands(v, job, d, env, ProbeFails(d, env));
      assert plan[|plan| - 1] == Cmd(Final, FinalLine(v, job), Some(d), env);
      assert o.events[|o.events| - 3] == Exec(ran[|ran| - 1]);
    }
  }

  /** When every store write goes through, a cycle settles the picked job:
      each of its rows ends `completed` (its error message left as it was) or
      `failed` with the pipeline's message, and every other row is untouched. */
  lemma CycleSettlesJob(v: Variant, db: Db, ws: set<string>, env: Env)
    requires env.fetchOk && Oldest(v, TableRows(db, Table(v))).Some?
    requires forall s :: env.writeOk(s)
    ensures var rows := TableRows(db, Table(v));
      var job := rows[Oldest(v, rows).value];
      var c := PollForJobs(v, db, ws, env);
      var after := c.db[Table(v)];
      && c.handled.Some?
      && |after| == |rows|
      && (forall k :: 0 <= k < |rows| && rows[k].id != job.id ==> after[k] == rows[k])
      && (forall k :: 0 <= k < |rows| && rows[k].id == job.id ==>
            && after[k].status == (if c.handled.value.Returned? then Completed else Failed)
            && after[k].errorMessage ==
                 (if c.handled.value.Threw? then Some(c.handled.value.message) else rows[k].errorMessage))
  {
    var rows := TableRows(db, Table(v));
    var job := rows[Oldest(v, rows).value];
    var claimed := Report(rows, job.id, Processing, None, env);
    var o := ProcessRepository(v, job, claimed, ws, env);
    assert claimed == UpdateStatus(rows, job.id, Processing, None);
  }

  /** Prepending a piece to a non-empty join adds the piece and one separator. */
  lemma JoinCons(x: string, ys: seq<string>, sep: string)
    requires |ys| > 0
    ensures Join([x] + ys, sep) == x + sep + Join(ys, sep)
  {
    assert ([x] + ys)[1..] == ys;
  }

  /** The fixed words of the clone line, with their separators. */
  lemma ClonePrefix()
    ensures "git" + " " + ("clone" + " " + ("--depth" + " " + ("1" + " " + ("--branch" + " "))))
      == "git clone --depth 1 --branch "
  {
  }

  /** The tail of the clone words joined: branch, URL and directory. */
  lemma JoinCloneTail(b: string, u: string, dir: string)
    ensures Join([b, u, dir], " ") == b + " " + u + " " + dir
  {
    JoinCons(u, [dir], " ");
    JoinCons(b, [u, dir], " ");
    assert [b] + [u, dir] == [b, u, dir];
  }

  /** Five words in front of a non-empty join, joined by single spaces. */
  lemma JoinFiveInFront(w0: string, w1: string, w2: string, w3: string, w4: string, rest: seq<string>)
    requires |rest| > 0
    ensures Join([w0, w1, w2, w3, w4] + rest, " ") ==
      w0 + " " + (w1 + " " + (w2 + " " + (w3 + " " + (w4 + " " + Join(rest, " ")))))
  {
    var s4 := [w4] + rest;
    JoinCons(w4, rest, " ");
    var s3 := [w3] + s4;
    JoinCons(w3, s4, " ");
    var s2 := [w2] + s3;
    JoinCons(w2, s3, " ");
    var s1 := [w1] + s2;
    JoinCons(w1, s2, " ");
    JoinCons(w0, s1, " ");
    assert [w0] + s1 == [w0, w1, w2, w3, w4] + rest;
  }

  /** The clone line is the clone words joined by single spaces. */
  lemma CloneLineJoinsWords(b: string, u: string, dir: string)
    ensures Join(["git"] + RepoContents.GitArgs(b, u, dir), " ") ==
      "git clone --depth 1 --branch " + b + " " + u + " " + dir
  {
    var rest := b + " " + u + " " + dir;
    assert ["git"] + RepoContents.GitArgs(b, u, dir) == ["git", "clone", "--depth", "1", "--branch"] + [b, u, dir];
    JoinCloneTail(b, u, dir);
    JoinFiveInFront("git", "clone", "--depth", "1", "--branch", [b, u, dir]);
    ClonePrefix();
    var p := "git clone --depth 1 --branch ";
    assert "git" + " " + ("clone" + " " + ("--depth" + " " + ("1" + " " + ("--branch" + " " + rest))))
      == p + rest;
  }

  /** The clone command splits into `git` followed by exactly the argument
      vector the repository-contents function hands to git, when no part of
      it contains a space. */
  lemma CloneCommandWords(job: Row, dir: string)
    requires ' ' !in Or(job.branch, DefaultBranch)
    requires ' ' !in Interpolate(job.githubUrl)
    requires ' ' !in dir
    ensures Words(CloneLine(job, dir)) ==
      ["git"] + RepoContents.GitArgs(Or(job.branch, DefaultBranch), Interpolate(job.githubUrl), dir)
  {
    var b := Or(job.branch, DefaultBranch);
    var u := Interpolate(job.githubUrl);
    var xs := ["git"] + RepoContents.GitArgs(b, u, dir);
    CloneLineJoinsWords(b, u, dir);
    assert xs == ["git", "clone", "--depth", "1", "--branch", b, u, dir];
    assert forall i :: 0 <= i < |xs| ==> ' ' !in xs[i];
    SplitJoin(xs, ' ');
  }

  /** The final command tears the stage down exactly for a `toBeRemoved` job
      picked by the current worker; the legacy worker always deploys. */
  lemma FinalCommandMode(v: Variant, job: Row)
    ensures FinalLine(v, job) == "npx sst " + "remove" + " --stage " + Or(job.stage, DefaultStage) <==>
      v == Current && job.status == ToBeRemoved
    ensures v == Legacy ==> FinalLine(v, job) == "npx sst " + "deploy" + " --stage " + Or(job.stage, DefaultStage)
  {
    var stage := Or(job.stage, DefaultStage);
    if !(v == Current && job.status == ToBeRemoved) {
      var deploy := "npx sst " + "deploy";
      var remove := "npx sst " + "remove";
      assert deploy[8] != remove[8];
      assert (deploy + " --stage " + stage)[8] == deploy[8];
      assert (remove + " --stage " + stage)[8] == remove[8];
    }
  }

  /** The legacy worker reads only `pending` rows of its own table: a table
      holding none is left alone, `toBeRemoved` rows included. */
  lemma LegacyIgnoresRemovals(db: Db, ws: set<string>, env: Env)
    requires forall k :: 0 <= k < |TableRows(db, "deployment_jobs")| ==>
      TableRows(db, "deployment_jobs")[k].status != Pending
    ensures var c := PollForJobs(Legacy, db, ws, env);
      c.events == [] && c.db == db && c.workspace == ws && c.handled == None
  {
    assert Oldest(Legacy, TableRows(db, Table(Legacy))).None?;
  }

  /** The polling timer's lifecycle. Before a start the health flag reads
      false and a firing does nothing. Once started the flag reads true, the
      start runs one cycle, and every firing runs exactly one poll cycle. Once
      stopped a firing writes, runs and makes nothing, yet the flag still reads
      true because the handle is never reset; stopping again changes nothing. */
  lemma PollingLifecycle(v: Variant, db: Db, ws: set<string>, env: Env, db': Db, ws': set<string>, env': Env)
    ensures !Idle.timerSet && StopPolling(Idle) == Idle
    ensures var c := Tick(Idle, v, db', ws', env');
      c.events == [] && c.db == db' && c.workspace == ws' && c.handled == None
    ensures var started := StartPolling(v, db, ws, env);
      && started.0.timerSet
      && started.1 == PollForJobs(v, db, ws, env)
      && Tick(started.0, v, db', ws', env') == PollForJobs(v, db', ws', env')
    ensures var stopped := StopPolling(StartPolling(v, db, ws, env).0);
      var c := Tick(stopped, v, db', ws', env');
      && stopped.timerSet
      && c.events == [] && c.db == db' && c.workspace == ws' && c.handled == None
      && StopPolling(stopped) == stopped
  {
  }
}
